=== FILE: README.md ===
# Courier street recall — a Dafny model

The application helps a parcel courier learn which route area each street
(or building) of their round belongs to. Its engine keeps a store of street
records. It looks a spoken or typed street name up against that store, using
a homophone table, pinyin and edit distance. It cuts a long spoken transcript
into recognised street names. It drills the courier with four-option
quizzes, and schedules reviews with a spaced-repetition table plus a
"mistake pool" that a record leaves after five correct answers in a row.
Around the engine sit the pages that list, filter, group and add streets.
Two small trackers, for held parcels and for to-dos, are also covered.

This project models that behaviour as pure Dafny functions over immutable
datatypes, with two imperative algorithms verified against functional
definitions:

- the edit-distance matrix (`Levenshtein.Levenshtein`, proved equal to the
  recursive `EditDistance`);
- the transcript cursor loop (`Segmenter.Cursor`, proved equal to the
  recursive `Segmenter.Scan`).

Inputs the program takes from its environment are parameters:

- **the clock:** `now`, in epoch milliseconds, and `today` as a
  `YYYY-MM-DD` string;
- **pinyin:** the transliteration library becomes an arbitrary function
  `py: string -> string`;
- **fresh record ids:** an `id` or `newId` argument;
- **random shuffles:** a draw sequence. `Seqs.Shuffle` turns every draw
  sequence into a permutation, and `Seqs.ShuffleReaches` shows that every
  permutation can come out.

Strings are sequences of Dafny characters, which are Unicode scalar values.
JavaScript strings are sequences of UTF-16 code units. The two agree on
text inside the Basic Multilingual Plane, which holds the Chinese street
names, pinyin, digits and dates the app works with.

Modules, one per file (the homophone file holds two):

| file | module | what it holds |
|---|---|---|
| strings.dfy | Strings | `includes`, `trim`, ASCII `toLowerCase`, character-code string order |
| seqs.dfy | Seqs | filter, count, dedupe, take, shuffle |
| sorting.dfy | Sorting | a stable insertion sort standing for `Array.prototype.sort` |
| records.dfy | Records | the street record, the id-keyed store, `Option`/`Result` |
| levenshtein.dfy | Levenshtein | the edit-distance matrix |
| homophones.dfy | Homophones, HomophoneFacts | the homophone table and its replacement pass; what the pass does to single characters |
| search.dfy | Search | scoring and ranking for `search` |
| segmenter.dfy | Segmenter | `batchRecognize` |
| review.dfy | Review | `processQuizResult`, due streets, mistake pool |
| store.dfy | StreetStore | `add` and `mergeStreets` |
| areas.dfy | Areas | distinct, sorted route areas and per-area counts |
| quiz_builder.dfy | QuizBuilder | `generateQuiz` |
| quiz_session.dfy | QuizSession | the quiz page: options, answers, advancing, starting |
| library.dfy | Library | the library page: grouping, tabs, search filter |
| manage.dfy | Manage | the management page: filter, drop-down counts, add, import |
| hpa1.dfy | Hpa1 | the held-parcel page: tracking numbers, tiers, pending list |
| todo.dfy | Todo | the to-do page: display list and order, add guard |

## Model

| member | source | states |
|---|---|---|
| Records.NewRecord | services/db.ts:142-151 | a new record carries the caller's fields, the fresh id and creation time, and an all-zero review history |
| Levenshtein.Levenshtein | services/db.ts:58-74 | the matrix algorithm returns exactly the classic edit distance with unit insert, delete and substitute costs |
| Levenshtein.FillRow | services/db.ts:63-72 | filling one row from the previous one makes every cell of the row the edit distance of the two prefixes, and leaves the other rows alone |
| Levenshtein.Cell | services/db.ts:65-70 | the minimum of the three neighbours plus their costs is the edit distance of the two prefixes |
| Levenshtein.Recurrence | services/db.ts:66-70 | the edit distance of two prefixes satisfies the matrix recurrence |
| Levenshtein.Border | services/db.ts:60-61 | the first row and column hold the other prefix's length |
| Levenshtein.DistanceToSelf | services/db.ts:58-74 | a string is at distance 0 from itself |
| Levenshtein.DistanceToEmpty | services/db.ts:58-74 | against the empty string the distance is the other string's length |
| Levenshtein.DistanceBounds | services/db.ts:58-74 | the distance is at least the length difference and at most the longer length |
| Levenshtein.DistanceSymmetric | services/db.ts:58-74 | the distance does not depend on argument order |
| Levenshtein.DistanceZeroIff | services/db.ts:58-74 | distance 0 holds exactly for equal strings |
| Homophones.ReplaceSingle | services/db.ts:279 | a global replacement of one unit by another changes exactly the occurrences of that unit and keeps the length |
| Homophones.ReplaceAbsent | services/db.ts:279 | a pattern whose first unit never occurs changes nothing |
| Homophones.Correct | services/db.ts:276-281 | the full pass over the table keeps the length, rewrites unit by unit, and leaves no `1`, so the two-unit variant `10` can never fire |
| HomophoneFacts.CorrectUnlisted | services/db.ts:33-55 | a unit that is in no variant list passes through unchanged |
| HomophoneFacts.CorrectEndsAtKey | services/db.ts:33-55 | every unit ends as itself or as one of the table's keys |
| Homophones.CharVariantsRange | services/db.ts:278-280 | one row of the table maps a unit to itself or to the row's key |
| Homophones.EntriesPointwise | services/db.ts:277-281 | when every variant is a single unit, apart from multi-unit ones starting with an already removed `1`, the pass acts unit by unit |
| Homophones.TableRows | services/db.ts:33-55 | every row of the table has single-unit variants, except `10`, which follows the row that removes `1` |
| Search.PinyinScoreRange | services/db.ts:284-289 | the pinyin contribution is nothing or lies in (86, 90], and is 90 exactly for equal non-empty pinyins |
| Search.ScoreRange | services/db.ts:272-289 | a score lies in 0..100, and 100 is reached exactly by the exact name |
| Search.ScoreFloors | services/db.ts:273-289 | a name containing the query scores at least 80, the homophone-corrected query at least 95, and an identical non-empty pinyin at least 90 |
| Search.QualifiesIff | services/db.ts:294 | a record passes the threshold of 60 exactly when one of the name, homophone or pinyin signals fired |
| Search.Scored | services/db.ts:271-292 | each record is paired with its own score, in store order |
| Search.Ranked | services/db.ts:294 | the ranking is a stable, descending-score permutation of the qualifying matches |
| Search.Top | services/db.ts:294 | the result holds at most five qualifying matches, each with its record's score, in non-increasing order |
| Search.Search | services/db.ts:263-267 | a blank or white-space query gives nothing, and no query gives more than five results |
| Search.TopResults | services/db.ts:294 | a qualifying record left out lost to five records that score at least as high |
| Search.ExactNameFirst | services/db.ts:273 | a record named exactly as the query comes first, with score 100 |
| Search.HomophoneQualifies | services/db.ts:282 | a record named as the corrected query is returned, unless five results all score at least 95 |
| Search.SearchExactNameFirst | services/db.ts:263-295 | on the raw query text, an exact name comes first with score 100 |
| Search.SearchHomophone | services/db.ts:263-295 | on the raw query text, the corrected-query guarantee holds |
| Strings.ContainsIffOccurs | services/db.ts:273 | `includes` holds exactly when the needle occurs at some offset of the text |
| Strings.Trim | services/db.ts:266-267 | trimming removes white space at both ends only, and leaves nothing exactly for an all-white-space query |
| Segmenter.WithPinyin | services/db.ts:300-305 | a cached record gets the name's pinyin when none is stored, and nothing else changes |
| Segmenter.Candidates | services/db.ts:316 | the candidates are the cached records, reordered so that longer names come first, and records with names of equal length keep their stored order |
| Segmenter.Find | services/db.ts:331 | `find` returns the first element that satisfies the test, or nothing when none does |
| Segmenter.ChunkMatch | services/db.ts:331-350 | a chunk matches exactly when some candidate accepts it, and exact names win over fuzzy ones; a fuzzy match needs at least 3 units, a length within one, and pinyin distance at most 1 |
| Segmenter.Window | services/db.ts:327-352 | a window found at a position lies in the text, is 2 to 10 units long, and its chunk is accepted |
| Segmenter.WindowLongest | services/db.ts:327-352 | windows are tried longest first: no longer window matches, and finding none means none of 2 to 10 units matches |
| Segmenter.Probe | services/db.ts:323-352 | the inner loop computes the window search at the cursor |
| Segmenter.Scan | services/db.ts:321-363 | the cursor loop takes at most 500 steps, and every hit lies at or after the start and inside the text |
| Segmenter.ScanOrdered | services/db.ts:354-362 | the hits are in left-to-right order and do not overlap |
| Segmenter.ScanSkips | services/db.ts:360-362 | positions before the first hit matched nothing and were skipped |
| Segmenter.ScanSteps | services/db.ts:321-363 | every hit is the window search's answer at its own start |
| Segmenter.Cursor | services/db.ts:317-363 | the imperative loop produces exactly the recursive scan |
| Segmenter.ScanGood | services/db.ts:321-363 | every hit is the longest matching window at its start |
| Segmenter.MatcherHits | services/db.ts:327-358 | every hit is 2 to 10 units long, lies in the text, and its record is a candidate that accepts the span |
| Segmenter.SegmentOf | services/db.ts:355-358 | a pushed result is exactly the matched span of the processed text, as long as the hit, with the hit's record |
| Segmenter.BatchRecognize | services/db.ts:297-366 | the results are the spans and records of the cursor scan over the homophone-corrected text with the length-ordered candidates; there are at most 500, each a span of 2 to 10 units matched to a candidate record that accepts it |
| Segmenter.RecognizedSpans | services/db.ts:354-362 | the results are spans of the corrected text, left to right and not overlapping |
| Review.IntervalMs | services/db.ts:214 | the interval is the table entry for the stage, and one day past the table |
| Review.Answer | services/db.ts:207-236 | a wrong answer resets the stage, counts a failure, enters the pool and sets the next review to the answer time, so the record is due; a correct one raises the stage to at most 6, schedules the old stage's interval, and moves the pool streak, graduating at five |
| Review.ProcessQuizResult | services/db.ts:196-240 | only the answered record changes, and an unknown id changes nothing |
| Review.DueStreets | services/db.ts:124-133 | the due records, in store order: scheduled and the time has come, or failed but never scheduled |
| Review.MistakePool | services/db.ts:135-138 | the records in the mistake pool, in store order |
| Review.StageAfterRun | services/db.ts:212-215 | n correct answers in a row raise the stage by n, capped at 6 |
| Review.StreakAfterRun | services/db.ts:219-226 | in the pool, correct answers raise the streak one by one, and the fifth graduates |
| Review.OutOfPoolStaysOut | services/db.ts:219-226 | correct answers never bring a record back into the pool |
| StreetStore.Add | services/db.ts:140-154 | adding stores the new record under a fresh id and keeps every other record, and a taken id is rejected |
| StreetStore.FindByName | services/db.ts:166 | the first snapshot record with the row's name, or nothing |
| StreetStore.Updated | services/db.ts:168 | an update keeps identity and review history, takes the new area, and keeps the old pinyin when the new one is empty |
| StreetStore.Step | services/db.ts:165-182 | one row either updates a snapshot record or adds one, and fails only on a taken fresh id |
| StreetStore.MergeStreets | services/db.ts:156-187 | added plus updated equals the number of rows, updated counts the rows that match the snapshot, and no key is lost |
| StreetStore.MergeFromKeys | services/db.ts:165-182 | after the loop the store holds the old keys and exactly the keys the rows write: a namesake's id or a new id |
| StreetStore.MergeFromKeeps | services/db.ts:165-182 | a key no row writes keeps its record |
| StreetStore.MergeFromLast | services/db.ts:165-182 | each key holds the record written by the last row that writes it: the updated snapshot record or the new record |
| StreetStore.MergeKeys | services/db.ts:165-182 | with fresh ids and a snapshot of the store, the keys afterwards are the old ones plus the ids of the rows without a namesake |
| StreetStore.MergeAdds | services/db.ts:170-181 | each row without a namesake in the snapshot is stored as a new record under its id |
| StreetStore.MergeUpdates | services/db.ts:166-169 | the snapshot record a row's name finds ends up with the route area, and the non-empty pinyin, of the last row of that name |
| StreetStore.MergeKeeps | services/db.ts:165-182 | a stored record that no row's name finds is left as it was |
| StreetStore.MergeProvenance | services/db.ts:165-183 | every stored record afterwards is an untouched old one, a snapshot record updated from a row of its name, or a new record built from a row; which of these each key holds is stated by `StreetStore.MergeFromLast` |
| StreetStore.MergeFresh | services/db.ts:171-180 | with unused, pairwise distinct fresh ids the merge never fails |
| Areas.UniqueAreas | services/db.ts:244 | the distinct route areas, exactly those some record has |
| Areas.SortedAreas | pages/ManagePage.tsx:121 | the distinct route areas in strictly increasing order, exactly those some record has |
| Areas.AreaCount | pages/ManagePage.tsx:222 | a count never exceeds the number of streets, and is positive exactly for areas some street has |
| Areas.AreaCountIsFilter | pages/ManagePage.tsx:222 | the count is the length of the filtered street list |
| Areas.SortedAreaCounts | pages/ManagePage.tsx:221-223 | the per-area counts add up to the number of streets |
| QuizBuilder.PadLabel | services/db.ts:254 | a padding label is the prefix followed by one digit |
| QuizBuilder.PadLabelsDistinct | services/db.ts:253-255 | padding labels for different positions differ |
| QuizBuilder.PadOptions | services/db.ts:253-255 | padding fills the options up to four, each pad naming its position |
| QuizBuilder.WrongAreas | services/db.ts:248 | the wrong areas are exactly the areas other than the correct one, without repeats |
| QuizBuilder.Distractors | services/db.ts:251 | at most three distractors, each another area, without repeats |
| QuizBuilder.Unshuffled | services/db.ts:249-255 | the correct area first, then the distractors, then pads |
| QuizBuilder.MakeQuestion | services/db.ts:247-259 | a question is about its record and has four options including the record's area |
| QuizBuilder.MakeQuestionOptions | services/db.ts:258 | the final options are a reordering of correct area, distractors and pads |
| QuizBuilder.Picked | services/db.ts:245 | `min(count, n)` records drawn from the store without reuse |
| QuizBuilder.GenerateQuiz | services/db.ts:242-261 | `min(count, n)` questions over records of the store, each with four options including its record's area |
| QuizBuilder.OptionsShape | services/db.ts:248-255 | every option is the correct area, another area some record has, or a pad label beyond the real distractors |
| QuizBuilder.OptionsDistinct | services/db.ts:244-258 | when no area starts with the pad prefix, the four options are pairwise distinct |
| QuizBuilder.QuestionsDistinct | services/db.ts:245 | distinct records give questions about distinct records |
| QuizSession.PadUnknown | pages/QuizPage.tsx:110 | distractors are filled up to three with `未知` |
| QuizSession.ItemUnshuffled | pages/QuizPage.tsx:108-111 | the distractors, then `未知` padding, then the correct area |
| QuizSession.FromItems | pages/QuizPage.tsx:105-113 | one question per item, in item order, each about its item with four options including its area |
| QuizSession.ItemOptionShape | pages/QuizPage.tsx:106-111 | every option is the correct area, another area, or `未知`, and `未知` only when fewer than three other areas exist |
| QuizSession.ItemOptionsOnlyUnknownRepeats | pages/QuizPage.tsx:106-111 | only `未知` can occur more than once among the options |
| QuizSession.FromItemsOptions | pages/QuizPage.tsx:105-112 | every option of every question is the item's area, an area some record has, or `未知` padding |
| QuizSession.HandleAnswer | pages/QuizPage.tsx:125-141 | a second answer changes nothing; otherwise the answer is correct exactly when it names the record's area, and the score grows on a correct answer while a wrong one is appended to the wrong answers |
| QuizSession.NextQuestion | pages/QuizPage.tsx:115-123 | advances while a later question exists, else finishes |
| QuizSession.AnswerConsistent | pages/QuizPage.tsx:125-141 | answering keeps the index in range and score plus wrong answers equal to the questions answered |
| QuizSession.NextConsistent | pages/QuizPage.tsx:115-123 | advancing keeps that balance, and finishing means every question was answered |
| QuizSession.SliceLength | services/db.ts:245 | the length `slice(0, end)` keeps, with a negative end counted from the back |
| QuizSession.Fresh | pages/QuizPage.tsx:96-102 | a started session is consistent exactly when it has questions |
| QuizSession.StartQuiz | pages/QuizPage.tsx:77-103 | review and mistake modes quiz the due or pooled records or go home when there are none; random mode needs four records and asks for `min(count, n)` questions |
| QuizSession.EnabledStartPlays | pages/QuizPage.tsx:184-186 | an enabled start button always starts a non-empty, consistent quiz, except in random mode with fewer than four records |
| Library.GroupInto | pages/LibraryPage.tsx:37-42 | one step of the grouping appends the street to its own area's group and leaves the other groups alone |
| Library.GroupedPartition | pages/LibraryPage.tsx:37-42 | the groups are exactly the areas some street has, and each group lists that area's streets in input order |
| Library.GroupedAt | pages/LibraryPage.tsx:37-42 | for a single area, its group exists exactly when some street has it, and lists those streets in order |
| Library.Group | pages/LibraryPage.tsx:37-42 | a group holds exactly the streets of its area, in input order |
| Library.TabAreas | pages/LibraryPage.tsx:44 | the tabs are the group keys in strictly increasing order |
| Library.FilteredAreas | pages/LibraryPage.tsx:46-54 | an order-preserving sub-list of the tabs, keeping an area exactly when it is the chosen one (if any) and its name or one of its streets matches |
| Library.ShownStreets | pages/LibraryPage.tsx:119-124 | a street of the area is listed exactly when it or the area name matches |
| Library.EmptyQueryKeepsAll | pages/LibraryPage.tsx:46-54 | an empty query with no chosen area keeps every area |
| Library.AreaNameShowsAll | pages/LibraryPage.tsx:119-124 | an area matched by name lists all of its streets |
| Library.ShownAreaListsStreets | pages/LibraryPage.tsx:119-124 | a shown area never lists zero streets |
| Manage.FilteredStreets | pages/ManagePage.tsx:123-127 | an order-preserving sub-list keeping a street exactly when its name or area contains the filter and it lies in the chosen area, if any |
| Manage.NoFilterKeepsAll | pages/ManagePage.tsx:123-127 | an empty filter with no chosen area keeps every street |
| Manage.DropdownCounts | pages/ManagePage.tsx:221-223 | each drop-down count is the number of streets of that area, and is positive |
| Manage.DropdownCountsSum | pages/ManagePage.tsx:221-223 | the drop-down counts add up to the number of streets |
| Manage.HandleAdd | pages/ManagePage.tsx:52-59 | nothing happens unless name and area are both filled in; otherwise the store gains exactly the new record, with an empty review history, under the fresh id, and every other record is kept |
| Manage.ImportRecords | pages/ManagePage.tsx:100-104 | the import keeps exactly the rows that name both street and area |
| Manage.ImportRecordsOrder | pages/ManagePage.tsx:100-104 | the import keeps sheet order: its `k`-th record is built from the `k`-th complete row |
| Manage.Import | pages/ManagePage.tsx:100-109 | no complete row means no merge; otherwise the complete rows, as the import builds them, are merged, and added plus updated equals their number |
| Hpa1.Sanitize | pages/HPA1Page.tsx:38 | the cleaned number holds only `A-Z` and `0-9` and is no longer than the input |
| Hpa1.SanitizeLength | pages/HPA1Page.tsx:38 | exactly the input's ASCII letters and digits are kept |
| Hpa1.SanitizeAppend | pages/HPA1Page.tsx:38 | the input is cleaned piece by piece, so kept characters stay in order |
| Hpa1.SanitizeChar | pages/HPA1Page.tsx:38 | a single character is kept upper-cased when it is an ASCII letter or digit, and dropped otherwise |
| Hpa1.SanitizeIdempotent | pages/HPA1Page.tsx:38 | cleaning twice is cleaning once |
| Hpa1.StatusTier | pages/HPA1Page.tsx:116-120 | seven days or more is red, three to six orange, less green |
| Hpa1.TierMonotone | pages/HPA1Page.tsx:116-120 | the tier never gets less urgent as the days grow |
| Hpa1.PendingItems | pages/HPA1Page.tsx:24-25 | exactly the pending items, stably sorted by arrival date |
| Hpa1.HandleAdd | pages/HPA1Page.tsx:47-52 | an empty tracking number adds nothing |
| Hpa1.RowItem | pages/HPA1Page.tsx:94-96 | a row without a date takes today's |
| Hpa1.ImportRows | pages/HPA1Page.tsx:94-97 | rows without a tracking number are dropped, the others kept in sheet order with their date or today's |
| Todo.TodoLeSorts | pages/TodoPage.tsx:29-34 | the page's comparator is a total preorder, so the sort is well defined |
| Todo.Refresh | pages/TodoPage.tsx:25-36 | the list is exactly the open items plus those done today, sorted by the page's order, and items the order ranks equal keep their stored order |
| Todo.RefreshOrder | pages/TodoPage.tsx:29-34 | open items come first; open items by date, then newest first; done items newest first |
| Todo.HandleAddTask | pages/TodoPage.tsx:51-53 | nothing without text or picture; otherwise the trimmed text, or `图片待办` for a picture alone |
| Sorting.SortBy | services/db.ts:294 | the sort is a permutation, ordered by the comparator, and stable among equals |
| Seqs.Shuffle | services/db.ts:245 | a random-comparator shuffle yields a permutation |
| Seqs.ShuffleReaches | services/db.ts:245 | every permutation is a possible shuffle |

## Behaviour worth knowing

Each item states what the code does. The model does the same.

- A record's search score is the largest of the signals that fire (services/db.ts:272-288). The exact name gives 100. A name that contains the query gives 80. A name equal to the homophone-corrected query gives 95. A pinyin similarity above 0.8 gives 70 plus 20 times the similarity.
- The containment test asks whether the record's name contains the query, and it always gives 80 (services/db.ts:273).
- Equal non-empty pinyins have similarity 1 and so give 90 (services/db.ts:288).
- The transcript windows run from 10 units down to 2 (services/db.ts:325-326). A fuzzy window is at least 3 units long, within one unit of the name's length, and at pinyin distance at most 1 (services/db.ts:336-342). A position where no window matches is stepped over and adds nothing to the results (services/db.ts:361-362).
- For a review stage past the end of the six-entry interval table, the interval is one day, through the `|| 1` fallback (services/db.ts:214).
- A second homophone pass can change text again: `石` becomes `十` in one pass (services/db.ts:53), and `十` becomes `室` in the next (services/db.ts:42). So no idempotence is claimed. This example is stated here and is not proved.

## Left out

- **IndexedDB plumbing.** Opening the database, seeding it and running transactions are not modelled. The same goes for the `cachedStreets` cache and `delete`. The store is a map from id to record, and reads take a snapshot sequence. `getStorageStats` is also left out: it does floating-point display maths on browser data.
- **Pinyin transliteration.** This comes from a foreign library and is the parameter `py`.
- **Randomness, ids and time.** Draw sequences, `id`/`newId` parameters, and `now`/`today` parameters stand for the random shuffles, the random ids and `Date.now`. The source's random comparator is not a consistent comparator. It is modelled only as "some permutation".
- **Letter case.** `toLowerCase`/`toUpperCase` are modelled on ASCII letters only.
- **String order.** `localeCompare` and the default `sort()` are read as character-code order. This is the order they give on the ASCII `YYYY-MM-DD` dates and area names the pages use.
- **Score arithmetic.** Scores are exact reals, not doubles.
- **Geolocation and extra fields.** The geolocation fields of the record, and the record fields no modelled operation reads, are not part of the model.
- **Browser I/O.** Speech recognition, Web Audio, spreadsheet parsing and export, FileReader, image resizing, map links, mail links and localStorage are not modelled. Where a page hands parsed rows on, the rows are a parameter.
- **Auto-advance.** The 600 ms timer after a correct answer becomes the `advance` flag of `QuizSession.Answered`.
- **Other stores.** The held-parcel and to-do stores (`getAllHPA1`, `mergeHPA1`, `addTodo`, …) are not part of this model. Only the page-side logic is modelled, with local record types.
- **Display calendar maths.** Days retained, days overdue, percentages and progress bars are left out. `Hpa1.StatusTier` takes the day count as input.
- **Other pages.** `RelocationPage`, `SearchPage`, `HomePage`, `Layout`, `App` and `MapPage` are interface and routing code, or call store operations that are not part of this model.
- **Characters outside the Basic Multilingual Plane.** JavaScript counts such a character (an emoji, a rare CJK extension ideograph) as two UTF-16 code units, and the model counts it as one character. For such text the model's `length` checks and `substr` windows in the transcript segmenter (services/db.ts:328-329, services/db.ts:342), its edit distances, which JavaScript computes over code units, and its string order can differ from the app's.
- **Homophone examples.** Concrete outputs of the homophone pass on literal inputs are not proved. The table's general properties are proved instead.
- **Grouping keys.** In the grouping `reduce`, an area literally named like an `Object.prototype` member (such as `constructor`) is treated as an ordinary key.
- **Out-of-range answer.** When `handleAnswer` runs with the index past the questions, the model records the selected option and stops. This is where the source would throw on reading the missing question.
- Search.Search: its own contract states only the blank-query and size rules. The ranking guarantees are stated on `Search.Top` and on the `Search.Search…` lemmas.
- Levenshtein.DistanceToEmpty: follows directly from the definition and carries no proof of its own.

=== FILE: areas.dfy ===
/** Route areas: the distinct areas of a list of records, their sorted
    list, and the per-area counts the pages show. */
module Areas {
  import opened Strings
  import opened Seqs
  import opened Sorting
  import opened Records

  /** The route areas of the records, in order (`streets.map(s => s.routeArea)`). */
  function RouteAreas(streets: seq<StreetRecord>): (areas: seq<string>)
    ensures |areas| == |streets|
    ensures forall i :: 0 <= i < |streets| ==> areas[i] == streets[i].routeArea
  {
    seq(|streets|, i requires 0 <= i < |streets| => streets[i].routeArea)
  }

  /** Some record has route area `a`. */
  predicate HasArea(streets: seq<StreetRecord>, a: string) {
    exists i :: 0 <= i < |streets| && streets[i].routeArea == a
  }

  /** The areas of a list with one more record at the end. */
  lemma HasAreaSnoc(init: seq<StreetRecord>, last: StreetRecord, a: string)
    ensures HasArea(init + [last], a) <==> HasArea(init, a) || last.routeArea == a
  {
    var streets := init + [last];
    if HasArea(streets, a) && last.routeArea != a {
      var i :| 0 <= i < |streets| && streets[i].routeArea == a;
      assert init[i].routeArea == a;
    }
    if HasArea(init, a) {
      var i :| 0 <= i < |init| && init[i].routeArea == a;
      assert streets[i].routeArea == a;
    }
    if last.routeArea == a {
      assert streets[|init|].routeArea == a;
    }
  }

  /** `Array.from(new Set(streets.map(s => s.routeArea)))`: each area once,
      and exactly the areas some record has. */
  function UniqueAreas(streets: seq<StreetRecord>): (areas: seq<string>)
    ensures Distinct(areas)
    ensures forall a :: a in areas <==> exists s :: s in streets && s.routeArea == a
    ensures forall a :: a in areas <==> HasArea(streets, a)
  {
    var rs := RouteAreas(streets);
    assert forall a :: a in rs <==> HasArea(streets, a) by {
      forall a | HasArea(streets, a) ensures a in rs {
        var i :| 0 <= i < |streets| && streets[i].routeArea == a;
        assert rs[i] == a;
      }
    }
    assert forall a :: HasArea(streets, a) <==> exists s :: s in streets && s.routeArea == a by {
      forall a | HasArea(streets, a) ensures exists s :: s in streets && s.routeArea == a {
        var i :| 0 <= i < |streets| && streets[i].routeArea == a;
        assert streets[i] in streets;
      }
    }
    Dedupe(rs)
  }

  /** JavaScript's default string order sorts. */
  lemma LexLeSorts()
    ensures IsTotalPreorder(LexLe)
  {
    forall a, b ensures LexLe(a, b) || LexLe(b, a) {
      LexLeTotal(a, b);
    }
    forall a, b, c | LexLe(a, b) && LexLe(b, c) ensures LexLe(a, c) {
      LexLeTransitive(a, b, c);
    }
  }

  /** `Array.from(new Set(...)).sort()`: the distinct areas in strictly
      increasing character-code order. */
  function SortedAreas(streets: seq<StreetRecord>): (areas: seq<string>)
    ensures Distinct(areas)
    ensures forall i, j :: 0 <= i < j < |areas| ==> LexLe(areas[i], areas[j]) && areas[i] != areas[j]
    ensures forall a :: a in areas <==> HasArea(streets, a)
  {
    LexLeSorts();
    var u := UniqueAreas(streets);
    var r := SortBy(u, LexLe);
    SameMultisetDistinct(u, r);
    assert forall a :: a in r <==> a in multiset(u);
    r
  }

  /** `streets.filter(s => s.routeArea === area).length`, counted one record
      at a time. */
  function AreaCount(streets: seq<StreetRecord>, area: string): (n: nat)
    ensures n <= |streets|
    ensures n > 0 <==> HasArea(streets, area)
    decreases |streets|
  {
    if |streets| == 0 then 0
    else
      var rest := AreaCount(streets[1..], area);
      assert HasArea(streets, area) <==> streets[0].routeArea == area || HasArea(streets[1..], area) by {
        if HasArea(streets[1..], area) {
          var i :| 0 <= i < |streets| - 1 && streets[1..][i].routeArea == area;
          assert streets[i + 1].routeArea == area;
        }
        if HasArea(streets, area) && streets[0].routeArea != area {
          var i :| 0 <= i < |streets| && streets[i].routeArea == area;
          assert streets[1..][i - 1].routeArea == area;
        }
      }
      (if streets[0].routeArea == area then 1 else 0) + rest
  }

  /** The count is the length of the filtered list the page builds. */
  lemma {:induction false} AreaCountIsFilter(streets: seq<StreetRecord>, area: string)
    ensures AreaCount(streets, area) == |Filter(streets, (s: StreetRecord) => s.routeArea == area)|
    decreases |streets|
  {
    if |streets| > 0 {
      AreaCountIsFilter(streets[1..], area);
    }
  }

  /** The counts of the areas `areas` added up. */
  function SumCounts(streets: seq<StreetRecord>, areas: seq<string>): nat
    decreases |areas|
  {
    if |areas| == 0 then 0 else AreaCount(streets, areas[0]) + SumCounts(streets, areas[1..])
  }

  /** How often `a` occurs in `areas`. */
  function Occurrences(areas: seq<string>, a: string): nat
    decreases |areas|
  {
    if |areas| == 0 then 0 else (if areas[0] == a then 1 else 0) + Occurrences(areas[1..], a)
  }

  lemma {:induction false} SumCountsEmpty(areas: seq<string>)
    ensures SumCounts([], areas) == 0
    decreases |areas|
  {
    if |areas| > 0 {
      SumCountsEmpty(areas[1..]);
    }
  }

  lemma {:induction false} SumCountsCons(s: StreetRecord, rest: seq<StreetRecord>, areas: seq<string>)
    ensures SumCounts([s] + rest, areas) == SumCounts(rest, areas) + Occurrences(areas, s.routeArea)
    decreases |areas|
  {
    if |areas| > 0 {
      assert ([s] + rest)[1..] == rest;
      SumCountsCons(s, rest, areas[1..]);
    }
  }

  lemma {:induction false} OccursOnce(areas: seq<string>, a: string)
    requires Distinct(areas) && a in areas
    ensures Occurrences(areas, a) == 1
    decreases |areas|
  {
    if areas[0] == a {
      OccursNever(areas[1..], a);
    } else {
      OccursOnce(areas[1..], a);
    }
  }

  lemma {:induction false} OccursNever(areas: seq<string>, a: string)
    requires a !in areas
    ensures Occurrences(areas, a) == 0
    decreases |areas|
  {
    if |areas| > 0 {
      OccursNever(areas[1..], a);
    }
  }

  /** Over a list naming every area once, the counts add up to the number
      of records. */
  lemma {:induction false} CountsCoverAll(streets: seq<StreetRecord>, areas: seq<string>)
    requires Distinct(areas)
    requires forall i :: 0 <= i < |streets| ==> streets[i].routeArea in areas
    ensures SumCounts(streets, areas) == |streets|
    decreases |streets|
  {
    if |streets| == 0 {
      SumCountsEmpty(areas);
    } else {
      var s, rest := streets[0], streets[1..];
      assert streets == [s] + rest;
      CountsCoverAll(rest, areas);
      SumCountsCons(s, rest, areas);
      OccursOnce(areas, s.routeArea);
    }
  }

  /** The sorted area list's counts add up to the number of records. */
  lemma SortedAreaCounts(streets: seq<StreetRecord>)
    ensures SumCounts(streets, SortedAreas(streets)) == |streets|
  {
    var areas := SortedAreas(streets);
    forall i | 0 <= i < |streets| ensures streets[i].routeArea in areas {
      assert HasArea(streets, streets[i].routeArea);
    }
    CountsCoverAll(streets, areas);
  }
}

=== FILE: homophones.dfy ===
/** The homophone pass: a fixed, ordered table of mis-transcriptions, each
    replaced globally by the character it stands for. `search` and
    `batchRecognize` both run the query through it. */
module Homophones {

  /** One table row: every variant is rewritten to `key`. */
  datatype Entry = Entry(key: char, variants: seq<string>)

  /** The table, rows and variants in the order the source iterates them. */
  const HOMOPHONES: seq<Entry> := [
    Entry('路', ["陆", "鹿", "录", "六", "楼"]),
    Entry('街', ["杰", "洁", "节", "阶", "界"]),
    Entry('道', ["到", "稻", "导"]),
    Entry('巷', ["项", "像", "向"]),
    Entry('苑', ["院", "园", "元", "源"]),
    Entry('桥', ["乔", "俏", "巧"]),
    Entry('弄', ["龙", "农"]),
    Entry('幢', ["撞", "栋"]),
    Entry('室', ["是", "市", "十"]),
    Entry('区', ["去", "曲"]),
    Entry('一', ["幺", "1", "伊", "衣"]),
    Entry('二', ["两", "2", "儿"]),
    Entry('三', ["山", "3", "散"]),
    Entry('四', ["是", "4", "司", "死"]),
    Entry('五', ["舞", "5", "武", "午"]),
    Entry('六', ["溜", "6", "陆"]),
    Entry('七', ["期", "7", "齐", "气"]),
    Entry('八', ["发", "8", "巴", "拔"]),
    Entry('九', ["久", "9", "酒"]),
    Entry('十', ["石", "10", "实", "时"]),
    Entry('零', ["0", "林", "灵"])
  ]

  /** `s.replace(new RegExp(pat, 'g'), rep)` for a pattern without regular
      expression operators: every occurrence of `pat`, leftmost first and
      without overlap, becomes `rep`. The empty pattern matches at every
      position, before each unit and at the end. */
  function ReplaceAll(s: string, pat: string, rep: string): string
    decreases |s|
  {
    if |pat| == 0 then (if |s| == 0 then rep else rep + [s[0]] + ReplaceAll(s[1..], pat, rep))
    else if |s| < |pat| then s
    else if s[..|pat|] == pat then rep + ReplaceAll(s[|pat|..], pat, rep)
    else [s[0]] + ReplaceAll(s[1..], pat, rep)
  }

  /** The inner `variants.forEach` of one row. */
  function ApplyVariants(s: string, key: char, vs: seq<string>): string
    decreases |vs|
  {
    if |vs| == 0 then s else ApplyVariants(ReplaceAll(s, vs[0], [key]), key, vs[1..])
  }

  /** The outer loop over the rows. */
  function ApplyEntries(s: string, es: seq<Entry>): string
    decreases |es|
  {
    if |es| == 0 then s
    else ApplyEntries(ApplyVariants(s, es[0].key, es[0].variants), es[1..])
  }

  // ---------------------------------------------------------------------------
  // Reference definition: the pass as a map on single characters.

  /** What one row does to a single character; a multi-character variant
      never equals a single character and so does nothing here. */
  function CharVariants(c: char, key: char, vs: seq<string>): char
    decreases |vs|
  {
    if |vs| == 0 then c else CharVariants(if vs[0] == [c] then key else c, key, vs[1..])
  }

  function CharEntries(c: char, es: seq<Entry>): char
    decreases |es|
  {
    if |es| == 0 then c else CharEntries(CharVariants(c, es[0].key, es[0].variants), es[1..])
  }

  /** The character the whole table turns `c` into. */
  function CorrectChar(c: char): char {
    CharEntries(c, HOMOPHONES)
  }

  /** `c` is listed as a variant in some row of `es`. */
  predicate IsVariant(c: char, es: seq<Entry>) {
    exists e :: e in es && [c] in e.variants
  }

  // ---------------------------------------------------------------------------
  // Proof that the pass is that character map.

  lemma {:induction false} ReplaceSingle(s: string, p: char, k: char)
    ensures |ReplaceAll(s, [p], [k])| == |s|
    ensures forall i :: 0 <= i < |s| ==> ReplaceAll(s, [p], [k])[i] == if s[i] == p then k else s[i]
    decreases |s|
  {
    if |s| > 0 {
      ReplaceSingle(s[1..], p, k);
    }
  }

  lemma {:induction false} ReplaceAbsent(s: string, pat: string, rep: string)
    requires |pat| > 0 && pat[0] !in s
    ensures ReplaceAll(s, pat, rep) == s
    decreases |s|
  {
    if |s| >= |pat| {
      assert s[..|pat|][0] == s[0];
      ReplaceAbsent(s[1..], pat, rep);
      assert s == [s[0]] + s[1..];
    }
  }

  lemma {:induction false} CharVariantsRange(c: char, key: char, vs: seq<string>)
    ensures CharVariants(c, key, vs) == c || CharVariants(c, key, vs) == key
    decreases |vs|
  {
    if |vs| > 0 {
      CharVariantsRange(if vs[0] == [c] then key else c, key, vs[1..]);
    }
  }

  /** Once the single-character variant `[x]` has been processed, `x` is gone. */
  lemma {:induction false} CharVariantsAvoids(c: char, key: char, vs: seq<string>, x: char)
    requires [x] in vs && x != key
    ensures CharVariants(c, key, vs) != x
    decreases |vs|
  {
    var c' := if vs[0] == [c] then key else c;
    if vs[0] == [x] {
      CharVariantsRange(c', key, vs[1..]);
    } else {
      CharVariantsAvoids(c', key, vs[1..], x);
    }
  }

  /** Shape of a row the character map describes exactly: every variant is a
      single character, except ones that start with a `'1'` which is already gone. */
  predicate RowOk(vs: seq<string>, oneGone: bool) {
    forall v :: v in vs ==> |v| == 1 || (oneGone && |v| > 1 && v[0] == '1')
  }

  lemma {:induction false} VariantsPointwise(s: string, key: char, vs: seq<string>, oneGone: bool)
    requires RowOk(vs, oneGone) && key != '1'
    requires oneGone ==> '1' !in s
    ensures |ApplyVariants(s, key, vs)| == |s|
    ensures forall i :: 0 <= i < |s| ==> ApplyVariants(s, key, vs)[i] == CharVariants(s[i], key, vs)
    decreases |vs|
  {
    if |vs| > 0 {
      var v := vs[0];
      var s' := ReplaceAll(s, v, [key]);
      if |v| == 1 {
        ReplaceSingle(s, v[0], key);
        assert v == [v[0]];
        forall i | 0 <= i < |s| ensures CharVariants(s[i], key, vs) == CharVariants(s'[i], key, vs[1..]) {
          assert (vs[0] == [s[i]]) == (s[i] == v[0]);
        }
        if oneGone {
          forall i | 0 <= i < |s'| ensures s'[i] != '1' {
            assert s[i] in s;
          }
        }
      } else {
        ReplaceAbsent(s, v, [key]);
        forall i | 0 <= i < |s| ensures CharVariants(s[i], key, vs) == CharVariants(s[i], key, vs[1..]) {
          assert vs[0] != [s[i]];
        }
      }
      VariantsPointwise(s', key, vs[1..], oneGone);
    }
  }

  /** The table is processed in an order the character map describes: no row
      rewrites to `'1'`, and the only multi-character variant ("10") comes
      after the row that removes every `'1'`. */
  predicate EntriesOk(es: seq<Entry>, oneGone: bool)
    decreases |es|
  {
    |es| == 0 ||
    (&& es[0].key != '1'
     && RowOk(es[0].variants, oneGone)
     && EntriesOk(es[1..], oneGone || "1" in es[0].variants))
  }

  /** Some row of `es` lists `"1"` as a variant. */
  predicate RemovesOne(es: seq<Entry>) {
    exists k :: 0 <= k < |es| && "1" in es[k].variants
  }

  lemma {:induction false} EntriesPointwise(s: string, es: seq<Entry>, oneGone: bool)
    requires EntriesOk(es, oneGone)
    requires oneGone ==> '1' !in s
    ensures |ApplyEntries(s, es)| == |s|
    ensures forall i :: 0 <= i < |s| ==> ApplyEntries(s, es)[i] == CharEntries(s[i], es)
    ensures oneGone || RemovesOne(es) ==> '1' !in ApplyEntries(s, es)
    decreases |es|
  {
    if |es| > 0 {
      var e := es[0];
      var s' := ApplyVariants(s, e.key, e.variants);
      VariantsPointwise(s, e.key, e.variants, oneGone);
      var gone := oneGone || "1" in e.variants;
      if "1" in e.variants {
        forall i | 0 <= i < |s'| ensures s'[i] != '1' {
          CharVariantsAvoids(s[i], e.key, e.variants, '1');
        }
      } else if oneGone {
        forall i | 0 <= i < |s'| ensures s'[i] != '1' {
          CharVariantsRange(s[i], e.key, e.variants);
          assert s[i] in s;
        }
      }
      EntriesPointwise(s', es[1..], gone);
      if RemovesOne(es) && !gone {
        var k :| 0 <= k < |es| && "1" in es[k].variants;
        assert "1" in es[1..][k - 1].variants;
      }
    }
  }

  /** `EntriesOk` from a row-by-row description of the table: row `p` lists
      `"1"`, and only rows after it may hold a variant longer than one character. */
  lemma {:induction false} EntriesOkFromRows(es: seq<Entry>, k: nat, oneGone: bool, p: nat)
    requires k <= |es| && p < |es| && "1" in es[p].variants
    requires p < k ==> oneGone
    requires forall j :: k <= j < |es| ==> es[j].key != '1' && RowOk(es[j].variants, oneGone || p < j)
    ensures EntriesOk(es[k..], oneGone)
    decreases |es| - k
  {
    if k < |es| {
      var gone := oneGone || "1" in es[k].variants;
      EntriesOkFromRows(es, k + 1, gone, p);
      assert es[k..][1..] == es[k + 1..];
    }
  }

  /** Each row of the table, one at a time. */
  lemma RowsUpToOne()
    ensures forall j :: 0 <= j <= 6 && j < |HOMOPHONES| ==> HOMOPHONES[j].key != '1' && RowOk(HOMOPHONES[j].variants, 10 < j)
  {
    forall j | 0 <= j <= 6 && j < |HOMOPHONES|
      ensures HOMOPHONES[j].key != '1' && RowOk(HOMOPHONES[j].variants, 10 < j)
    {
      if j == 0 {
      } else if j == 1 {
      } else if j == 2 {
      } else if j == 3 {
      } else if j == 4 {
      } else if j == 5 {
      } else if j == 6 {
      }
    }
  }

  lemma RowsAroundOne()
    ensures forall j :: 7 <= j <= 13 && j < |HOMOPHONES| ==> HOMOPHONES[j].key != '1' && RowOk(HOMOPHONES[j].variants, 10 < j)
  {
    forall j | 7 <= j <= 13 && j < |HOMOPHONES|
      ensures HOMOPHONES[j].key != '1' && RowOk(HOMOPHONES[j].variants, 10 < j)
    {
      if j == 7 {
      } else if j == 8 {
      } else if j == 9 {
      } else if j == 10 {
      } else if j == 11 {
      } else if j == 12 {
      } else if j == 13 {
      }
    }
  }

  lemma RowsAfterOne()
    ensures forall j :: 14 <= j <= 20 && j < |HOMOPHONES| ==> HOMOPHONES[j].key != '1' && RowOk(HOMOPHONES[j].variants, 10 < j)
  {
    forall j | 14 <= j <= 20 && j < |HOMOPHONES|
      ensures HOMOPHONES[j].key != '1' && RowOk(HOMOPHONES[j].variants, 10 < j)
    {
      if j == 14 {
      } else if j == 15 {
      } else if j == 16 {
      } else if j == 17 {
      } else if j == 18 {
      } else if j == 19 {
      } else if j == 20 {
      }
    }
  }

  lemma TableRows()
    ensures forall j :: 0 <= j < |HOMOPHONES| ==> HOMOPHONES[j].key != '1' && RowOk(HOMOPHONES[j].variants, 10 < j)
  {
    RowsUpToOne();
    RowsAroundOne();
    RowsAfterOne();
  }

  /** Row 10 (`一`) is the row that lists `"1"`. */
  lemma OneRow()
    ensures |HOMOPHONES| == 21 && "1" in HOMOPHONES[10].variants
  {
    assert HOMOPHONES[10].variants[1] == "1";
  }

  /** `EntriesPointwise` for a table described row by row. */
  lemma RowsPointwise(s: string, es: seq<Entry>, p: nat)
    requires p < |es| && "1" in es[p].variants
    requires forall j :: 0 <= j < |es| ==> es[j].key != '1' && RowOk(es[j].variants, p < j)
    ensures |ApplyEntries(s, es)| == |s|
    ensures forall i :: 0 <= i < |s| ==> ApplyEntries(s, es)[i] == CharEntries(s[i], es)
    ensures '1' !in ApplyEntries(s, es)
  {
    EntriesOkFromRows(es, 0, false, p);
    assert es[0..] == es;
    EntriesPointwise(s, es, false);
  }

  /** The homophone-corrected text (`correctedTarget`, `processedText`). The
      table rewrites each character on its own, keeps the length, and leaves
      no `'1'` behind; its one multi-character variant, `"10"`, can never
      match, because row `一` has already replaced every `'1'`. */
  function Correct(s: string): (r: string)
    ensures |r| == |s|
    ensures forall i :: 0 <= i < |s| ==> r[i] == CorrectChar(s[i])
    ensures '1' !in r
  {
    TableRows();
    OneRow();
    RowsPointwise(s, HOMOPHONES, 10);
    ApplyEntries(s, HOMOPHONES)
  }
}

/** What the homophone pass does, stated on single characters. */
module HomophoneFacts {
  import opened Homophones

  /** A character that no row lists is left alone. */
  lemma {:induction false} UnlistedUnchanged(c: char, es: seq<Entry>)
    requires !IsVariant(c, es)
    ensures CharEntries(c, es) == c
    decreases |es|
  {
    if |es| > 0 {
      assert [c] !in es[0].variants by {
        assert es[0] in es;
      }
      VariantsUnlisted(c, es[0].key, es[0].variants);
      assert forall e :: e in es[1..] ==> e in es;
      UnlistedUnchanged(c, es[1..]);
    }
  }

  lemma {:induction false} VariantsUnlisted(c: char, key: char, vs: seq<string>)
    requires [c] !in vs
    ensures CharVariants(c, key, vs) == c
    decreases |vs|
  {
    if |vs| > 0 {
      assert vs[0] != [c];
      VariantsUnlisted(c, key, vs[1..]);
    }
  }

  /** Every character ends up either unchanged or as the key of some row. */
  lemma {:induction false} EndsAtKey(c: char, es: seq<Entry>)
    ensures CharEntries(c, es) == c || exists e :: e in es && CharEntries(c, es) == e.key
    decreases |es|
  {
    if |es| > 0 {
      var c' := CharVariants(c, es[0].key, es[0].variants);
      CharVariantsRange(c, es[0].key, es[0].variants);
      EndsAtKey(c', es[1..]);
      if CharEntries(c', es[1..]) != c' {
        var e :| e in es[1..] && CharEntries(c', es[1..]) == e.key;
        assert e in es;
      } else if c' != c {
        assert es[0] in es;
      }
    }
  }

  /** On the table itself: a character that no row lists is left alone ... */
  lemma CorrectUnlisted(c: char)
    requires !IsVariant(c, HOMOPHONES)
    ensures CorrectChar(c) == c
  {
    UnlistedUnchanged(c, HOMOPHONES);
  }

  /** ... and one that changes becomes the key of some row. */
  lemma CorrectEndsAtKey(c: char)
    ensures CorrectChar(c) == c || exists e :: e in HOMOPHONES && CorrectChar(c) == e.key
  {
    EndsAtKey(c, HOMOPHONES);
  }
}

=== FILE: hpa1.dfy ===
/** The held-parcel page (HPA1): tracking numbers taken from speech, the
    pending list ordered by arrival date, the retention colour tiers, and
    the guards of adding and importing parcels. The parcel store behind the
    page is not part of this model; the page's own item type is declared
    here with the fields the page reads. */
module Hpa1 {
  import opened Seqs
  import opened Sorting
  import opened Strings
  import opened Records

  datatype Status = Pending | Paid

  /** A held parcel; `arrivalDate` is a `YYYY-MM-DD` string. */
  datatype Item = Item(id: string, trackingNumber: string, arrivalDate: string, status: Status)

  // ---------------------------------------------------------------------------
  // The tracking-number sanitiser.

  /** The characters `/[a-zA-Z0-9]/` matches. */
  predicate IsAsciiAlnum(c: char) {
    ('a' <= c <= 'z') || ('A' <= c <= 'Z') || ('0' <= c <= '9')
  }

  /** The characters a sanitised tracking number consists of. */
  predicate IsTrackingChar(c: char) {
    ('A' <= c <= 'Z') || ('0' <= c <= '9')
  }

  /** `toUpperCase` on the characters left after the sanitiser's filter. */
  function UpperChar(c: char): (u: char)
    ensures IsAsciiAlnum(c) ==> IsTrackingChar(u)
    ensures IsTrackingChar(c) ==> u == c
  {
    if 'a' <= c <= 'z' then (c as int - 32) as char else c
  }

  /** `raw.replace(/[^a-zA-Z0-9]/g, '').toUpperCase()`. */
  function Sanitize(raw: string): (clean: string)
    ensures |clean| <= |raw|
    ensures forall k :: 0 <= k < |clean| ==> IsTrackingChar(clean[k])
    decreases |raw|
  {
    if |raw| == 0 then ""
    else (if IsAsciiAlnum(raw[0]) then [UpperChar(raw[0])] else "") + Sanitize(raw[1..])
  }

  /** Sanitising works character by character, keeping the order. */
  lemma {:induction false} SanitizeAppend(a: string, b: string)
    ensures Sanitize(a + b) == Sanitize(a) + Sanitize(b)
    decreases |a|
  {
    if |a| == 0 {
      assert a + b == b;
    } else {
      var head: string := if IsAsciiAlnum(a[0]) then [UpperChar(a[0])] else "";
      assert (a + b)[0] == a[0] && (a + b)[1..] == a[1..] + b;
      SanitizeAppend(a[1..], b);
      calc {
        Sanitize(a + b);
        head + Sanitize(a[1..] + b);
        head + (Sanitize(a[1..]) + Sanitize(b));
        (head + Sanitize(a[1..])) + Sanitize(b);
        { assert Sanitize(a) == head + Sanitize(a[1..]); }
        Sanitize(a) + Sanitize(b);
      }
    }
  }

  /** One character out for each letter or digit in. */
  lemma {:induction false} SanitizeLength(raw: string)
    ensures |Sanitize(raw)| == CountIf(raw, IsAsciiAlnum)
    decreases |raw|
  {
    if |raw| > 0 {
      SanitizeLength(raw[1..]);
    }
  }

  /** What happens to one character. */
  lemma SanitizeChar(c: char)
    ensures Sanitize([c]) == if IsAsciiAlnum(c) then [UpperChar(c)] else []
  {
    assert [c][1..] == [];
  }

  /** A string of upper-case letters and digits is left as it is. */
  lemma {:induction false} SanitizeClean(s: string)
    requires forall k :: 0 <= k < |s| ==> IsTrackingChar(s[k])
    ensures Sanitize(s) == s
    decreases |s|
  {
    if |s| > 0 {
      SanitizeClean(s[1..]);
      assert s == [s[0]] + s[1..];
    }
  }

  /** Sanitising twice changes nothing more. */
  lemma SanitizeIdempotent(raw: string)
    ensures Sanitize(Sanitize(raw)) == Sanitize(raw)
  {
    SanitizeClean(Sanitize(raw));
  }

  // ---------------------------------------------------------------------------
  // Retention tiers.

  /** The colour of `getStatusColor`. */
  datatype Tier = Green | Orange | Red

  /** The tier for a parcel held `days` whole days: a week or more is red,
      three days or more orange, anything less (also a future date) green. */
  function StatusTier(days: int): (t: Tier)
    ensures t == Red <==> days >= 7
    ensures t == Orange <==> 3 <= days < 7
    ensures t == Green <==> days < 3
  {
    if days >= 7 then Red else if days >= 3 then Orange else Green
  }

  /** Green, orange, red in rising order of urgency. */
  function Urgency(t: Tier): nat {
    match t
    case Green => 0
    case Orange => 1
    case Red => 2
  }

  /** A parcel held longer is never shown as less urgent. */
  lemma TierMonotone(d1: int, d2: int)
    requires d1 <= d2
    ensures Urgency(StatusTier(d1)) <= Urgency(StatusTier(d2))
  {
  }

  // ---------------------------------------------------------------------------
  // The pending list.

  predicate IsPending(x: Item) {
    x.status == Pending
  }

  /** The comparator `a.arrivalDate.localeCompare(b.arrivalDate)`. */
  predicate ByArrival(a: Item, b: Item) {
    LexLe(a.arrivalDate, b.arrivalDate)
  }

  lemma ByArrivalSorts()
    ensures IsTotalPreorder(ByArrival)
  {
    forall a: Item, b: Item ensures ByArrival(a, b) || ByArrival(b, a) {
      LexLeTotal(a.arrivalDate, b.arrivalDate);
    }
    forall a: Item, b: Item, c: Item | ByArrival(a, b) && ByArrival(b, c) ensures ByArrival(a, c) {
      LexLeTransitive(a.arrivalDate, b.arrivalDate, c.arrivalDate);
    }
  }

  /** `loadItems`: the pending parcels, earliest arrival first; parcels
      arriving the same day keep their stored order. */
  function PendingItems(all: seq<Item>): (r: seq<Item>)
    ensures forall x :: x in r <==> x in all && x.status == Pending
    ensures multiset(r) == multiset(Filter(all, IsPending))
    ensures forall i, j :: 0 <= i < j < |r| ==> LexLe(r[i].arrivalDate, r[j].arrivalDate)
    ensures forall z :: Peers(r, z, ByArrival) == Peers(Filter(all, IsPending), z, ByArrival)
  {
    ByArrivalSorts();
    var r := SortBy(Filter(all, IsPending), ByArrival);
    assert forall x :: x in r <==> x in multiset(r);
    assert forall i, j :: 0 <= i < j < |r| ==> ByArrival(r[i], r[j]);
    r
  }

  // ---------------------------------------------------------------------------
  // Adding and importing.

  /** What the page asks the parcel store to add. */
  datatype NewItem = NewItem(trackingNumber: string, arrivalDate: string)

  /** `handleAdd`: nothing for an empty tracking number, otherwise the
      number with the chosen date. */
  function HandleAdd(trackingNum: string, arrivalDate: string): (r: Option<NewItem>)
    ensures r.None? <==> |trackingNum| == 0
    ensures r.Some? ==> r.value.trackingNumber == trackingNum && r.value.arrivalDate == arrivalDate
  {
    if |trackingNum| == 0 then None else Some(NewItem(trackingNum, arrivalDate))
  }

  /** A spreadsheet row; an empty cell reads as "". */
  datatype SheetRow = SheetRow(trackingNumber: string, arrivalDate: string)

  /** One row as the import reads it: a missing date becomes `today`. */
  function RowItem(row: SheetRow, today: string): (x: NewItem)
    ensures x.trackingNumber == row.trackingNumber
    ensures |row.arrivalDate| > 0 ==> x.arrivalDate == row.arrivalDate
    ensures |row.arrivalDate| == 0 ==> x.arrivalDate == today
  {
    NewItem(row.trackingNumber, if |row.arrivalDate| > 0 then row.arrivalDate else today)
  }

  /** Every row as the import reads it, in sheet order. */
  function RowItems(rows: seq<SheetRow>, today: string): (m: seq<NewItem>)
    ensures |m| == |rows|
    ensures forall i :: 0 <= i < |rows| ==> m[i] == RowItem(rows[i], today)
  {
    seq(|rows|, i requires 0 <= i < |rows| => RowItem(rows[i], today))
  }

  /** The rows the import hands to the merge, in sheet order. */
  function ImportRows(rows: seq<SheetRow>, today: string): (r: seq<NewItem>)
    ensures forall x :: x in r ==> |x.trackingNumber| > 0
    ensures forall x :: x in r <==> exists row :: row in rows && |row.trackingNumber| > 0 && x == RowItem(row, today)
    ensures |today| > 0 ==> forall x :: x in r ==> |x.arrivalDate| > 0
    ensures IsSubsequence(r, RowItems(rows, today))
  {
    var mapped := RowItems(rows, today);
    assert forall x :: x in mapped <==> exists row :: row in rows && x == RowItem(row, today) by {
      forall x | x in mapped ensures exists row :: row in rows && x == RowItem(row, today) {
        var i :| 0 <= i < |mapped| && mapped[i] == x;
        assert rows[i] in rows;
      }
      forall x | exists row :: row in rows && x == RowItem(row, today) ensures x in mapped {
        var row :| row in rows && x == RowItem(row, today);
        var i :| 0 <= i < |rows| && rows[i] == row;
        assert mapped[i] == x;
      }
    }
    Filter(mapped, (x: NewItem) => |x.trackingNumber| > 0)
  }
}

=== FILE: levenshtein.dfy ===
/** Edit distance between two strings, character by character, with unit
    cost for inserting, deleting and substituting one unit. */
module Levenshtein {

  function Min3(x: nat, y: nat, z: nat): (m: nat)
    ensures m <= x && m <= y && m <= z
    ensures m == x || m == y || m == z
  {
    if x <= y && x <= z then x else if y <= z then y else z
  }

  /** Cost of aligning two units: nothing when equal, one substitution otherwise. */
  function Cost(x: char, y: char): nat {
    if x == y then 0 else 1
  }

  /** Classic edit distance, defined on prefixes: the cheapest of deleting the
      last unit of `a`, inserting the last unit of `b`, or aligning the two
      last units. Entry `[i][j]` of the source's matrix is
      `EditDistance(a[..i], b[..j])`. */
  function EditDistance(a: string, b: string): nat
    decreases |a| + |b|
  {
    if |a| == 0 then |b|
    else if |b| == 0 then |a|
    else Min3(EditDistance(a[..|a| - 1], b) + 1,
              EditDistance(a, b[..|b| - 1]) + 1,
              EditDistance(a[..|a| - 1], b[..|b| - 1]) + Cost(a[|a| - 1], b[|b| - 1]))
  }

  /** One cell of the matrix from its three neighbours. */
  lemma Recurrence(a: string, b: string, i: nat, j: nat)
    requires 1 <= i <= |a| && 1 <= j <= |b|
    ensures EditDistance(a[..i], b[..j])
         == Min3(EditDistance(a[..i - 1], b[..j]) + 1,
                 EditDistance(a[..i], b[..j - 1]) + 1,
                 EditDistance(a[..i - 1], b[..j - 1]) + Cost(a[i - 1], b[j - 1]))
  {
    assert a[..i][..i - 1] == a[..i - 1] && b[..j][..j - 1] == b[..j - 1];
  }

  /** The value the source stores in cell `[i][j]`, given its three
      neighbours. */
  lemma Cell(a: string, b: string, i: nat, j: nat, up: nat, left: nat, diag: nat)
    requires 1 <= i <= |a| && 1 <= j <= |b|
    requires up == EditDistance(a[..i - 1], b[..j])
    requires left == EditDistance(a[..i], b[..j - 1])
    requires diag == EditDistance(a[..i - 1], b[..j - 1])
    ensures Min3(up + 1, left + 1, diag + (if a[i - 1] == b[j - 1] then 0 else 1)) == EditDistance(a[..i], b[..j])
  {
    Recurrence(a, b, i, j);
  }

  /** The first row and column of the matrix. */
  lemma Border(a: string, b: string, i: nat, j: nat)
    requires i <= |a| && j <= |b|
    ensures EditDistance(a[..i], b[..0]) == i
    ensures EditDistance(a[..0], b[..j]) == j
  {
  }

  /** Fills row `i` of the matrix from row `i - 1`, left to right. */
  method FillRow(m: array2<nat>, a: string, b: string, i: nat)
    requires m.Length0 == |a| + 1 && m.Length1 == |b| + 1
    requires 1 <= i <= |a|
    requires forall c :: 0 <= c <= |b| ==> m[i - 1, c] == EditDistance(a[..i - 1], b[..c])
    requires m[i, 0] == i
    modifies m
    ensures forall c :: 0 <= c <= |b| ==> m[i, c] == EditDistance(a[..i], b[..c])
    ensures forall r, c :: 0 <= r < m.Length0 && r != i && 0 <= c < m.Length1 ==> m[r, c] == old(m[r, c])
  {
    Border(a, b, i, 0);
    var j := 1;
    while j <= |b|
      invariant 1 <= j <= |b| + 1
      invariant forall r, c :: 0 <= r < m.Length0 && r != i && 0 <= c < m.Length1 ==> m[r, c] == old(m[r, c])
      invariant forall c :: 0 <= c < j ==> m[i, c] == EditDistance(a[..i], b[..c])
    {
      var up, left, diag := m[i - 1, j], m[i, j - 1], m[i - 1, j - 1];
      var cost := if a[i - 1] == b[j - 1] then 0 else 1;
      Cell(a, b, i, j, up, left, diag);
      m[i, j] := Min3(up + 1, left + 1, diag + cost);
      j := j + 1;
    }
  }

  /** The source's `levenshtein`: fills the `(|a|+1) x (|b|+1)` matrix row by
      row and returns its bottom-right entry. */
  method Levenshtein(a: string, b: string) returns (d: nat)
    ensures d == EditDistance(a, b)
  {
    var m := new nat[|a| + 1, |b| + 1];
    var i := 0;
    while i <= |a|
      invariant 0 <= i <= |a| + 1
      invariant forall r :: 0 <= r < i ==> m[r, 0] == r
    {
      m[i, 0] := i;
      i := i + 1;
    }
    var j := 0;
    while j <= |b|
      invariant 0 <= j <= |b| + 1
      invariant forall c :: 0 <= c < j ==> m[0, c] == c
      invariant forall r :: 0 <= r <= |a| ==> m[r, 0] == r
    {
      m[0, j] := j;
      j := j + 1;
    }
    forall c | 0 <= c <= |b| ensures m[0, c] == EditDistance(a[..0], b[..c]) {
      Border(a, b, 0, c);
    }
    i := 1;
    while i <= |a|
      invariant 1 <= i <= |a| + 1
      invariant forall c :: 0 <= c <= |b| ==> m[i - 1, c] == EditDistance(a[..i - 1], b[..c])
      invariant forall r :: i <= r <= |a| ==> m[r, 0] == r
    {
      FillRow(m, a, b, i);
      i := i + 1;
    }
    assert a[..|a|] == a && b[..|b|] == b;
    d := m[|a|, |b|];
  }

  /** A string is at distance 0 from itself. */
  lemma {:induction false} DistanceToSelf(a: string)
    ensures EditDistance(a, a) == 0
    decreases |a|
  {
    if |a| > 0 {
      DistanceToSelf(a[..|a| - 1]);
    }
  }

  /** Against the empty string the distance is the other string's length. */
  lemma DistanceToEmpty(a: string)
    ensures EditDistance(a, "") == |a| && EditDistance("", a) == |a|
  {
  }

  /** The distance is at least the length difference and at most the longer length. */
  lemma {:induction false} DistanceBounds(a: string, b: string)
    ensures |a| - |b| <= EditDistance(a, b) && |b| - |a| <= EditDistance(a, b)
    ensures EditDistance(a, b) <= if |a| >= |b| then |a| else |b|
    decreases |a| + |b|
  {
    if |a| > 0 && |b| > 0 {
      DistanceBounds(a[..|a| - 1], b);
      DistanceBounds(a, b[..|b| - 1]);
      DistanceBounds(a[..|a| - 1], b[..|b| - 1]);
    }
  }

  /** The distance does not depend on the order of its arguments. */
  lemma {:induction false} DistanceSymmetric(a: string, b: string)
    ensures EditDistance(a, b) == EditDistance(b, a)
    decreases |a| + |b|
  {
    if |a| > 0 && |b| > 0 {
      DistanceSymmetric(a[..|a| - 1], b);
      DistanceSymmetric(a, b[..|b| - 1]);
      DistanceSymmetric(a[..|a| - 1], b[..|b| - 1]);
    }
  }

  /** Distance 0 means the strings are equal, and only then. */
  lemma {:induction false} DistanceZeroIff(a: string, b: string)
    ensures EditDistance(a, b) == 0 <==> a == b
    decreases |a| + |b|
  {
    if a == b {
      DistanceToSelf(a);
    } else if |a| > 0 && |b| > 0 {
      var a', b' := a[..|a| - 1], b[..|b| - 1];
      DistanceZeroIff(a', b');
      assert a == a' + [a[|a| - 1]] && b == b' + [b[|b| - 1]];
    }
  }
}

=== FILE: library.dfy ===
/** The library page: the records grouped by route area, the sorted area
    tabs, and the search box and area tab that narrow both the areas and
    the streets listed under each. Matching is case-insensitive on ASCII
    letters. */
module Library {
  import opened Strings
  import opened Seqs
  import opened Records
  import opened Areas

  /** `groupedData`: route area to its records. */
  type Groups = map<string, seq<StreetRecord>>

  /** One step of the `reduce`: append the record to its area's group,
      opening the group on first sight. */
  function GroupInto(acc: Groups, s: StreetRecord): (g: Groups)
    ensures g.Keys == acc.Keys + {s.routeArea}
    ensures forall a :: a in acc && a != s.routeArea ==> g[a] == acc[a]
    ensures g[s.routeArea] == (if s.routeArea in acc then acc[s.routeArea] else []) + [s]
  {
    var area := s.routeArea;
    acc[area := (if area in acc then acc[area] else []) + [s]]
  }

  /** `streets.reduce(GroupInto, {})`, left to right. */
  function Grouped(streets: seq<StreetRecord>): Groups
    decreases |streets|
  {
    if |streets| == 0 then map[]
    else GroupInto(Grouped(streets[..|streets| - 1]), streets[|streets| - 1])
  }

  /** The records of one area, in their original order. */
  function Group(streets: seq<StreetRecord>, area: string): (g: seq<StreetRecord>)
    ensures forall s :: s in g <==> s in streets && s.routeArea == area
    ensures IsSubsequence(g, streets)
  {
    Filter(streets, (s: StreetRecord) => s.routeArea == area)
  }

  /** Grouping one more record extends only that record's area. */
  lemma GroupSnoc(init: seq<StreetRecord>, last: StreetRecord, area: string)
    ensures Group(init + [last], area) == Group(init, area) + (if last.routeArea == area then [last] else [])
  {
    FilterSnoc(init, last, (s: StreetRecord) => s.routeArea == area);
  }

  /** An area without records has an empty group. */
  lemma GroupEmpty(streets: seq<StreetRecord>, area: string)
    requires !HasArea(streets, area)
    ensures Group(streets, area) == []
  {
    forall s | s in streets ensures s.routeArea != area {
      var i :| 0 <= i < |streets| && streets[i] == s;
    }
  }

  /** The group of one area, one record at a time. */
  lemma {:induction false} GroupedAt(streets: seq<StreetRecord>, a: string)
    ensures a in Grouped(streets) <==> HasArea(streets, a)
    ensures a in Grouped(streets) ==> Grouped(streets)[a] == Group(streets, a)
    decreases |streets|
  {
    if |streets| == 0 {
      assert !HasArea(streets, a);
    } else {
      var init, last := streets[..|streets| - 1], streets[|streets| - 1];
      assert streets == init + [last];
      GroupedAt(init, a);
      HasAreaSnoc(init, last, a);
      GroupSnoc(init, last, a);
      if a !in Grouped(init) {
        GroupEmpty(init, a);
      }
    }
  }

  /** The grouping partitions the records: there is a group exactly for
      each area some record has, and it lists that area's records in their
      original order. */
  lemma GroupedPartition(streets: seq<StreetRecord>)
    ensures forall a :: a in Grouped(streets) <==> HasArea(streets, a)
    ensures forall a :: a in Grouped(streets) ==> Grouped(streets)[a] == Group(streets, a)
  {
    forall a ensures a in Grouped(streets) <==> HasArea(streets, a) {
      GroupedAt(streets, a);
    }
    forall a | a in Grouped(streets) ensures Grouped(streets)[a] == Group(streets, a) {
      GroupedAt(streets, a);
    }
  }

  /** The tabs: `Object.keys(groupedData).sort()`. */
  function TabAreas(streets: seq<StreetRecord>): (areas: seq<string>)
    ensures forall a :: a in areas <==> a in Grouped(streets)
    ensures Distinct(areas)
    ensures forall i, j :: 0 <= i < j < |areas| ==> LexLe(areas[i], areas[j]) && areas[i] != areas[j]
  {
    GroupedPartition(streets);
    SortedAreas(streets)
  }

  /** `text.toLowerCase().includes(query.toLowerCase())`. */
  predicate Matches(text: string, query: string) {
    Contains(Lower(text), Lower(query))
  }

  /** The street test: its name, or its company when it has one. */
  predicate StreetMatches(s: StreetRecord, query: string) {
    Matches(s.streetName, query) || (|s.companyName| > 0 && Matches(s.companyName, query))
  }

  /** The `filteredAreas` test for one area. */
  predicate AreaShown(streets: seq<StreetRecord>, area: string, query: string, activeArea: Option<string>) {
    && !(Present(activeArea) && area != activeArea.value)
    && (Matches(area, query) || exists s :: s in Group(streets, area) && StreetMatches(s, query))
  }

  /** `filteredAreas`: the tabs whose area passes the test, in tab order. */
  function FilteredAreas(streets: seq<StreetRecord>, query: string, activeArea: Option<string>): (r: seq<string>)
    ensures IsSubsequence(r, TabAreas(streets))
    ensures forall a :: a in r <==>
              && HasArea(streets, a)
              && !(Present(activeArea) && a != activeArea.value)
              && (Matches(a, query) || exists s :: s in streets && s.routeArea == a && StreetMatches(s, query))
    ensures Present(activeArea) ==> forall a :: a in r ==> a == activeArea.value
  {
    GroupedPartition(streets);
    Filter(TabAreas(streets), (a: string) => AreaShown(streets, a, query, activeArea))
  }

  /** The streets listed under a shown area: those matching the query, or
      all of them when the area's own name matches. */
  function ShownStreets(streets: seq<StreetRecord>, area: string, query: string): (r: seq<StreetRecord>)
    ensures IsSubsequence(r, Group(streets, area))
    ensures forall s :: s in r <==>
              s in streets && s.routeArea == area && (StreetMatches(s, query) || Matches(area, query))
  {
    Filter(Group(streets, area), (s: StreetRecord) => StreetMatches(s, query) || Matches(area, query))
  }

  /** Everything contains the empty query. */
  lemma MatchesEmpty(text: string)
    ensures Matches(text, "")
  {
    assert Lower("") == "";
    ContainsSelfAndEmpty(Lower(text));
  }

  /** An empty query without an area tab keeps every tab. */
  lemma EmptyQueryKeepsAll(streets: seq<StreetRecord>, activeArea: Option<string>)
    requires !Present(activeArea)
    ensures FilteredAreas(streets, "", activeArea) == TabAreas(streets)
  {
    forall a | a in TabAreas(streets) ensures AreaShown(streets, a, "", activeArea) {
      MatchesEmpty(a);
    }
    FilterAll(TabAreas(streets), (a: string) => AreaShown(streets, a, "", activeArea));
  }

  /** An area matched by its own name lists all its streets. */
  lemma AreaNameShowsAll(streets: seq<StreetRecord>, area: string, query: string)
    requires Matches(area, query)
    ensures ShownStreets(streets, area, query) == Group(streets, area)
  {
    FilterAll(Group(streets, area), (s: StreetRecord) => StreetMatches(s, query) || Matches(area, query));
  }

  /** No shown area is an empty heading: each lists at least one street. */
  lemma ShownAreaListsStreets(streets: seq<StreetRecord>, query: string, activeArea: Option<string>, area: string)
    requires area in FilteredAreas(streets, query, activeArea)
    ensures |ShownStreets(streets, area, query)| > 0
  {
    var s: StreetRecord;
    if Matches(area, query) {
      var i :| 0 <= i < |streets| && streets[i].routeArea == area;
      s := streets[i];
    } else {
      s :| s in streets && s.routeArea == area && StreetMatches(s, query);
    }
    assert s in ShownStreets(streets, area, query);
  }
}

=== FILE: manage.dfy ===
/** The management page: the area drop-down with per-area counts, the
    street list narrowed by the text filter and the chosen area, and the
    guard in front of adding a street. Matching here is case-sensitive. */
module Manage {
  import opened Strings
  import opened Seqs
  import opened Records
  import opened Areas
  import opened StreetStore

  /** The `filteredStreets` test: the filter text occurs in the name or the
      area, and the record lies in the chosen area, if any. */
  predicate Kept(s: StreetRecord, filter: string, selectedArea: Option<string>) {
    && (Contains(s.streetName, filter) || Contains(s.routeArea, filter))
    && (Present(selectedArea) ==> s.routeArea == selectedArea.value)
  }

  /** `filteredStreets`: the records passing the test, in their original order. */
  function FilteredStreets(streets: seq<StreetRecord>, filter: string, selectedArea: Option<string>): (r: seq<StreetRecord>)
    ensures IsSubsequence(r, streets)
    ensures forall s :: s in r <==>
              && s in streets
              && (Contains(s.streetName, filter) || Contains(s.routeArea, filter))
              && (Present(selectedArea) ==> s.routeArea == selectedArea.value)
  {
    Filter(streets, (s: StreetRecord) => Kept(s, filter, selectedArea))
  }

  /** An empty filter with no area chosen lists every record. */
  lemma NoFilterKeepsAll(streets: seq<StreetRecord>, selectedArea: Option<string>)
    requires !Present(selectedArea)
    ensures FilteredStreets(streets, "", selectedArea) == streets
  {
    forall s | s in streets ensures Kept(s, "", selectedArea) {
      ContainsSelfAndEmpty(s.streetName);
    }
    FilterAll(streets, (s: StreetRecord) => Kept(s, "", selectedArea));
  }

  /** The drop-down entries: each area of `uniqueAreas` with its count. */
  function DropdownCounts(streets: seq<StreetRecord>): (counts: seq<nat>)
    ensures |counts| == |SortedAreas(streets)|
    ensures forall i :: 0 <= i < |counts| ==>
              counts[i] == |Filter(streets, (s: StreetRecord) => s.routeArea == SortedAreas(streets)[i])| && counts[i] > 0
  {
    var areas := SortedAreas(streets);
    var counts := seq(|areas|, i requires 0 <= i < |areas| => AreaCount(streets, areas[i]));
    forall i | 0 <= i < |counts|
      ensures counts[i] == |Filter(streets, (s: StreetRecord) => s.routeArea == areas[i])| && counts[i] > 0
    {
      AreaCountIsFilter(streets, areas[i]);
    }
    counts
  }

  /** The sum of the drop-down counts. */
  function Total(counts: seq<nat>): nat
    decreases |counts|
  {
    if |counts| == 0 then 0 else counts[0] + Total(counts[1..])
  }

  lemma {:induction false} TotalOfCounts(streets: seq<StreetRecord>, areas: seq<string>, counts: seq<nat>)
    requires |counts| == |areas|
    requires forall i :: 0 <= i < |areas| ==> counts[i] == AreaCount(streets, areas[i])
    ensures Total(counts) == SumCounts(streets, areas)
    decreases |areas|
  {
    if |areas| > 0 {
      TotalOfCounts(streets, areas[1..], counts[1..]);
    }
  }

  /** Every street is counted under exactly one drop-down entry, so the
      counts add up to the number of streets. */
  lemma DropdownCountsSum(streets: seq<StreetRecord>)
    ensures Total(DropdownCounts(streets)) == |streets|
  {
    var areas := SortedAreas(streets);
    var counts := DropdownCounts(streets);
    forall i | 0 <= i < |areas| ensures counts[i] == AreaCount(streets, areas[i]) {
      AreaCountIsFilter(streets, areas[i]);
    }
    TotalOfCounts(streets, areas, counts);
    SortedAreaCounts(streets);
  }

  /** The form of the add dialog. */
  datatype Form = Form(streetName: string, routeArea: string, pinyin: string)

  /** `handleAdd`: nothing happens unless both the name and the area are
      filled in; otherwise the record is added under the fresh id `id`. */
  function HandleAdd(store: Store, form: Form, id: string, now: nat): (res: Result<Store>)
    ensures (|form.streetName| == 0 || |form.routeArea| == 0) ==> res == Success(store)
    ensures |form.streetName| > 0 && |form.routeArea| > 0 ==>
              && (res.Success? <==> id !in store)
              && (res.Success? ==>
                    && res.value == store[id := NewRecord(NewStreet(form.streetName, form.routeArea, "", form.pinyin), id, now)]
                    && res.value.Keys == store.Keys + {id}
                    && res.value[id].streetName == form.streetName
                    && res.value[id].routeArea == form.routeArea
                    && res.value[id].pinyin == form.pinyin
                    && UnreviewedState(res.value[id]))
  {
    if |form.streetName| == 0 || |form.routeArea| == 0 then Success(store)
    else Add(store, NewStreet(form.streetName, form.routeArea, "", form.pinyin), id, now)
  }

  // ---------------------------------------------------------------------------
  // The spreadsheet import.

  /** A sheet row the import keeps: it names both the street and the area. */
  predicate Complete(row: Form) {
    |row.streetName| > 0 && |row.routeArea| > 0
  }

  /** The row as `mergeStreets` receives it; the sheet has no company. */
  function RowStreet(row: Form): NewStreet {
    NewStreet(row.streetName, row.routeArea, "", row.pinyin)
  }

  /** The records the import hands to the merge: the complete rows, in sheet
      order. */
  function ImportRecords(rows: seq<Form>): (r: seq<NewStreet>)
    ensures |r| == CountIf(rows, Complete)
    ensures forall n :: n in r <==> exists row :: row in rows && Complete(row) && n == RowStreet(row)
    decreases |rows|
  {
    if |rows| == 0 then []
    else
      var rest := ImportRecords(rows[1..]);
      assert forall row :: row in rows <==> row == rows[0] || row in rows[1..];
      if Complete(rows[0]) then [RowStreet(rows[0])] + rest else rest
  }

  /** The records keep the sheet order: the `k`-th record is built from the
      `k`-th complete row. */
  lemma {:induction false} ImportRecordsOrder(rows: seq<Form>)
    ensures |ImportRecords(rows)| == |Filter(rows, Complete)|
    ensures forall k :: 0 <= k < |ImportRecords(rows)| ==>
              ImportRecords(rows)[k] == RowStreet(Filter(rows, Complete)[k])
    decreases |rows|
  {
    if |rows| > 0 {
      ImportRecordsOrder(rows[1..]);
      FilterCons(rows, Complete);
      var rest := ImportRecords(rows[1..]);
      var f := Filter(rows[1..], Complete);
      if Complete(rows[0]) {
        assert ImportRecords(rows) == [RowStreet(rows[0])] + rest;
        assert Filter(rows, Complete) == [rows[0]] + f;
      } else {
        assert ImportRecords(rows) == rest;
        assert Filter(rows, Complete) == [] + f;
      }
    }
  }

  /** The import after the sheet is read: nothing when no row is complete
      (the "no data" alert), otherwise the merge of the complete rows, whose
      added and updated counts cover exactly those rows. */
  function Import(store: Store, all: seq<StreetRecord>, rows: seq<Form>, newId: nat -> string, now: nat): (res: Option<Result<Merge>>)
    ensures res.None? <==> forall row :: row in rows ==> !Complete(row)
    ensures res.Some? ==> res.value == MergeStreets(store, all, ImportRecords(rows), newId, now)
    ensures res.Some? && res.value.Success? ==>
              res.value.value.added + res.value.value.updated == CountIf(rows, Complete)
  {
    var records := ImportRecords(rows);
    if |records| == 0 then
      assert Filter(rows, Complete) == [];
      None
    else
      assert records[0] in records;
      Some(MergeStreets(store, all, records, newId, now))
  }
}

=== FILE: quiz_builder.dfy ===
/** `generateQuiz(count)`: pick `count` records at random and give each four
    answer options, the record's own route area among up to three other
    areas, padded with numbered "unknown area" labels. Every random order is
    a parameter: shuffle `k` of one quiz takes its draws from `rnd(k)`. */
module QuizBuilder {
  import opened Seqs
  import opened Records
  import opened Areas

  /** A question and its options, in the order shown. */
  datatype Question = Question(question: StreetRecord, options: seq<string>)

  const OptionCount: nat := 4
  const MaxDistractors: nat := 3

  /** Padding labels read `未知区域 1`, `未知区域 2`, `未知区域 3`. */
  const PadPrefix: string := "未知区域 "

  /** The decimal digit of a number below ten. */
  function Digit(k: nat): (c: char)
    requires k < 10
    ensures '0' <= c <= '9'
  {
    (48 + k) as char
  }

  /** The label pushed while the option list has `k` entries. */
  function PadLabel(k: nat): (tag: string)
    requires k < 10
    ensures PadPrefix <= tag && |tag| == |PadPrefix| + 1
  {
    PadPrefix + [Digit(k)]
  }

  /** Distinct counts give distinct labels. */
  lemma PadLabelsDistinct(j: nat, k: nat)
    requires j < 10 && k < 10
    ensures PadLabel(j) == PadLabel(k) <==> j == k
  {
    if j != k {
      assert PadLabel(j)[|PadPrefix|] != PadLabel(k)[|PadPrefix|];
    }
  }

  /** `while (options.length < 4) options.push(`未知区域 ${options.length}`)`. */
  function PadOptions(options: seq<string>): (r: seq<string>)
    ensures |r| == if |options| < OptionCount then OptionCount else |options|
    ensures options <= r
    ensures forall k :: |options| <= k < |r| ==> r[k] == PadLabel(k)
    decreases OptionCount - |options|
  {
    if |options| >= OptionCount then options
    else PadOptions(options + [PadLabel(|options|)])
  }

  /** The areas other than the correct one (`uniqueAreas.filter(a => a !== q.routeArea)`). */
  function WrongAreas(areas: seq<string>, correct: string): (wrong: seq<string>)
    ensures forall a :: a in wrong <==> a in areas && a != correct
    ensures Distinct(areas) ==> Distinct(wrong)
  {
    var wrong := Filter(areas, (a: string) => a != correct);
    assert Distinct(areas) ==> Distinct(wrong) by {
      if Distinct(areas) {
        FilterDistinct(areas, (a: string) => a != correct);
      }
    }
    wrong
  }

  /** Up to three wrong areas in random order. */
  function Distractors(areas: seq<string>, correct: string, rs: seq<nat>): (d: seq<string>)
    ensures |d| == if |WrongAreas(areas, correct)| < MaxDistractors then |WrongAreas(areas, correct)| else MaxDistractors
    ensures forall a :: a in d ==> a in areas && a != correct
    ensures Distinct(areas) ==> Distinct(d)
  {
    var wrong := WrongAreas(areas, correct);
    var shuffled := Shuffle(wrong, rs);
    assert forall a :: a in shuffled ==> a in multiset(wrong);
    assert Distinct(areas) ==> Distinct(shuffled) by {
      if Distinct(areas) {
        SameMultisetDistinct(wrong, shuffled);
      }
    }
    Take(shuffled, MaxDistractors)
  }

  /** The options before the final shuffle: the correct area, then the
      distractors, then padding up to four. */
  function Unshuffled(correct: string, d: seq<string>): (o: seq<string>)
    requires |d| <= MaxDistractors
    ensures |o| == OptionCount
    ensures o[0] == correct
    ensures forall k :: 1 <= k <= |d| ==> o[k] == d[k - 1]
    ensures forall k :: |d| < k < OptionCount ==> o[k] == PadLabel(k)
  {
    var o := PadOptions([correct] + d);
    assert forall k :: 1 <= k <= |d| ==> o[k] == ([correct] + d)[k];
    o
  }

  /** One question: the correct area, up to three distractors drawn by
      `rsWrong` and padding, shuffled by `rsOrder`. */
  function MakeQuestion(areas: seq<string>, q: StreetRecord, rsWrong: seq<nat>, rsOrder: seq<nat>): (question: Question)
    ensures question.question == q
    ensures |question.options| == OptionCount
    ensures q.routeArea in question.options
  {
    var u := Unshuffled(q.routeArea, Distractors(areas, q.routeArea, rsWrong));
    var o := Shuffle(u, rsOrder);
    assert u[0] in multiset(o);
    Question(q, o)
  }

  /** The shown options are the unshuffled ones, in some order. */
  lemma MakeQuestionOptions(areas: seq<string>, q: StreetRecord, rsWrong: seq<nat>, rsOrder: seq<nat>)
    ensures multiset(MakeQuestion(areas, q, rsWrong, rsOrder).options)
         == multiset(Unshuffled(q.routeArea, Distractors(areas, q.routeArea, rsWrong)))
  {
  }

  /** The `count` records the quiz asks about: a shuffled prefix of the store. */
  function Picked(all: seq<StreetRecord>, count: nat, rs: seq<nat>): (picked: seq<StreetRecord>)
    ensures |picked| == if |all| < count then |all| else count
    ensures multiset(picked) <= multiset(all)
  {
    var shuffled := Shuffle(all, rs);
    TakeMultiset(shuffled, count);
    Take(shuffled, count)
  }

  /** The questions of a quiz as a sequence of records. */
  function Asked(quiz: seq<Question>): (qs: seq<StreetRecord>)
    ensures |qs| == |quiz|
    ensures forall k :: 0 <= k < |quiz| ==> qs[k] == quiz[k].question
  {
    seq(|quiz|, k requires 0 <= k < |quiz| => quiz[k].question)
  }

  /** Question `k` of a quiz: it draws its distractors from `rnd(2k+1)` and
      its order from `rnd(2k+2)`. */
  function QuestionAt(areas: seq<string>, picked: seq<StreetRecord>, rnd: nat -> seq<nat>, k: nat): (question: Question)
    requires k < |picked|
    ensures question.question == picked[k]
    ensures |question.options| == OptionCount && picked[k].routeArea in question.options
  {
    MakeQuestion(areas, picked[k], rnd(2 * k + 1), rnd(2 * k + 2))
  }

  /** One question per picked record, in the picked order. */
  function Questions(areas: seq<string>, picked: seq<StreetRecord>, rnd: nat -> seq<nat>): (quiz: seq<Question>)
    ensures |quiz| == |picked|
    ensures Asked(quiz) == picked
    ensures forall k :: 0 <= k < |quiz| ==> quiz[k] == QuestionAt(areas, picked, rnd, k)
  {
    seq(|picked|, k requires 0 <= k < |picked| => QuestionAt(areas, picked, rnd, k))
  }

  /** `generateQuiz(count)` over the stored records `all`. */
  function GenerateQuiz(all: seq<StreetRecord>, count: nat, rnd: nat -> seq<nat>): (quiz: seq<Question>)
    ensures |quiz| == if |all| < count then |all| else count
    ensures multiset(Asked(quiz)) <= multiset(all)
    ensures forall k :: 0 <= k < |quiz| ==>
              |quiz[k].options| == OptionCount && quiz[k].question.routeArea in quiz[k].options
    ensures forall k :: 0 <= k < |quiz| ==> quiz[k] == QuestionAt(UniqueAreas(all), Asked(quiz), rnd, k)
  {
    Questions(UniqueAreas(all), Picked(all, count, rnd(0)), rnd)
  }

  // ---------------------------------------------------------------------------
  // What the options promise.

  /** Every option of question `k` is its own route area, another area some
      record has, or a padding label; and padding appears only when there
      are fewer than three other areas. */
  lemma OptionsShape(all: seq<StreetRecord>, count: nat, rnd: nat -> seq<nat>, k: nat, x: string)
    requires k < |GenerateQuiz(all, count, rnd)|
    requires x in GenerateQuiz(all, count, rnd)[k].options
    ensures var q := GenerateQuiz(all, count, rnd)[k].question;
            || x == q.routeArea
            || (x != q.routeArea && exists s :: s in all && s.routeArea == x)
            || (exists j :: |WrongAreas(UniqueAreas(all), q.routeArea)| < j < OptionCount && x == PadLabel(j))
  {
    var areas := UniqueAreas(all);
    var quiz := GenerateQuiz(all, count, rnd);
    var q := quiz[k].question;
    assert quiz[k] == MakeQuestion(areas, q, rnd(2 * k + 1), rnd(2 * k + 2));
    var d := Distractors(areas, q.routeArea, rnd(2 * k + 1));
    var u := Unshuffled(q.routeArea, d);
    MakeQuestionOptions(areas, q, rnd(2 * k + 1), rnd(2 * k + 2));
    assert x in multiset(u);
    OptionOfUnshuffled(areas, q.routeArea, d, x);
  }

  /** The same, for one list of options before the shuffle. */
  lemma OptionOfUnshuffled(areas: seq<string>, correct: string, d: seq<string>, x: string)
    requires |d| <= MaxDistractors
    requires forall a :: a in d ==> a in areas && a != correct
    requires x in Unshuffled(correct, d)
    ensures || x == correct
            || (x in areas && x != correct)
            || (exists j :: |d| < j < OptionCount && x == PadLabel(j))
  {
    var u := Unshuffled(correct, d);
    var i :| 0 <= i < |u| && u[i] == x;
    if 1 <= i <= |d| {
      assert x == d[i - 1];
    }
  }

  /** Labels never collide with an area that does not start like one. */
  lemma NotPadLabel(a: string, k: nat)
    requires k < 10
    requires !(PadPrefix <= a)
    ensures a != PadLabel(k)
  {
  }

  /** The options before the shuffle are four different strings, provided no
      route area reads like a padding label. */
  lemma UnshuffledDistinct(correct: string, d: seq<string>)
    requires |d| <= MaxDistractors
    requires Distinct(d) && correct !in d
    requires !(PadPrefix <= correct)
    requires forall a :: a in d ==> !(PadPrefix <= a)
    ensures Distinct(Unshuffled(correct, d))
  {
    var u := Unshuffled(correct, d);
    forall i, j | 0 <= i < j < |u| ensures u[i] != u[j] {
      if j <= |d| {
        if i > 0 {
          assert u[i] == d[i - 1] && u[j] == d[j - 1];
        } else {
          assert u[j] in d;
        }
      } else if i > |d| {
        PadLabelsDistinct(i, j);
      } else if i == 0 {
        NotPadLabel(correct, j);
      } else {
        assert u[i] in d;
        NotPadLabel(u[i], j);
      }
    }
  }

  /** Each question's options are four different strings, provided no route
      area reads like a padding label. */
  lemma OptionsDistinct(areas: seq<string>, q: StreetRecord, rsWrong: seq<nat>, rsOrder: seq<nat>)
    requires Distinct(areas)
    requires forall a :: a in areas ==> !(PadPrefix <= a)
    requires !(PadPrefix <= q.routeArea)
    ensures Distinct(MakeQuestion(areas, q, rsWrong, rsOrder).options)
  {
    var d := Distractors(areas, q.routeArea, rsWrong);
    UnshuffledDistinct(q.routeArea, d);
    MakeQuestionOptions(areas, q, rsWrong, rsOrder);
    SameMultisetDistinct(Unshuffled(q.routeArea, d), MakeQuestion(areas, q, rsWrong, rsOrder).options);
  }

  /** Store records are all different, so the questions are too. */
  lemma QuestionsDistinct(all: seq<StreetRecord>, count: nat, rnd: nat -> seq<nat>)
    requires Distinct(all)
    ensures var quiz := GenerateQuiz(all, count, rnd);
            forall i, j :: 0 <= i < j < |quiz| ==> quiz[i].question != quiz[j].question
  {
    var quiz := GenerateQuiz(all, count, rnd);
    var qs := Asked(quiz);
    DistinctMultiset(all);
    DistinctMultiset(qs);
    forall i, j | 0 <= i < j < |quiz| ensures quiz[i].question != quiz[j].question {
      assert qs[i] == quiz[i].question && qs[j] == quiz[j].question;
    }
  }
}

=== FILE: quiz_session.dfy ===
/** The quiz page: questions built from a list of items (review and
    mistake modes), the answer/advance state machine and the mode and count
    guards of starting a quiz. Randomness is a parameter, as in
    `QuizBuilder`, and so is the clock. */
module QuizSession {
  import opened Seqs
  import opened Records
  import opened Areas
  import opened Review
  import opened QuizBuilder

  /** The one padding label of `generateQuizFromItems`; unlike the quiz
      builder's numbered labels it may repeat. */
  const Unknown: string := "未知"

  // ---------------------------------------------------------------------------
  // generateQuizFromItems

  /** `while (distractors.length < 3) distractors.push("未知")`. */
  function PadUnknown(d: seq<string>): (r: seq<string>)
    ensures |r| == if |d| < MaxDistractors then MaxDistractors else |d|
    ensures d <= r
    ensures forall k :: |d| <= k < |r| ==> r[k] == Unknown
    decreases MaxDistractors - |d|
  {
    if |d| >= MaxDistractors then d else PadUnknown(d + [Unknown])
  }

  /** The options before the final shuffle: the padded distractors, then the
      correct area. */
  function ItemUnshuffled(areas: seq<string>, correct: string, rsWrong: seq<nat>): (u: seq<string>)
    ensures |u| == OptionCount
    ensures u[MaxDistractors] == correct
    ensures forall k :: 0 <= k < |Distractors(areas, correct, rsWrong)| ==> u[k] == Distractors(areas, correct, rsWrong)[k]
    ensures forall k :: |Distractors(areas, correct, rsWrong)| <= k < MaxDistractors ==> u[k] == Unknown
  {
    PadUnknown(Distractors(areas, correct, rsWrong)) + [correct]
  }

  /** The question for one item. */
  function ItemQuestion(areas: seq<string>, q: StreetRecord, rsWrong: seq<nat>, rsOrder: seq<nat>): (question: Question)
    ensures question.question == q
    ensures |question.options| == OptionCount
    ensures q.routeArea in question.options
  {
    var u := ItemUnshuffled(areas, q.routeArea, rsWrong);
    var o := Shuffle(u, rsOrder);
    assert u[MaxDistractors] in multiset(o);
    Question(q, o)
  }

  /** The question for item `k`: distractors from `rnd(2k+1)`, order from
      `rnd(2k+2)`. */
  function ItemAt(areas: seq<string>, items: seq<StreetRecord>, rnd: nat -> seq<nat>, k: nat): (question: Question)
    requires k < |items|
    ensures question.question == items[k]
    ensures |question.options| == OptionCount && items[k].routeArea in question.options
  {
    ItemQuestion(areas, items[k], rnd(2 * k + 1), rnd(2 * k + 2))
  }

  /** `generateQuizFromItems(items, allStreets)`: one question per item, in
      item order, asking about that item. */
  function FromItems(items: seq<StreetRecord>, all: seq<StreetRecord>, rnd: nat -> seq<nat>): (quiz: seq<Question>)
    ensures |quiz| == |items|
    ensures Asked(quiz) == items
    ensures forall k :: 0 <= k < |quiz| ==>
              |quiz[k].options| == OptionCount && items[k].routeArea in quiz[k].options
    ensures forall k :: 0 <= k < |quiz| ==> quiz[k] == ItemAt(UniqueAreas(all), items, rnd, k)
  {
    var areas := UniqueAreas(all);
    var quiz := seq(|items|, k requires 0 <= k < |items| => ItemAt(areas, items, rnd, k));
    assert forall k :: 0 <= k < |quiz| ==> Asked(quiz)[k] == items[k];
    quiz
  }

  /** Every option of one item question is the correct area, another area of
      `areas`, or the padding label, and the padding label is only added
      when fewer than three other areas exist. */
  lemma ItemOptionShape(areas: seq<string>, q: StreetRecord, rsWrong: seq<nat>, rsOrder: seq<nat>, x: string)
    requires x in ItemQuestion(areas, q, rsWrong, rsOrder).options
    ensures || x == q.routeArea
            || (x in areas && x != q.routeArea)
            || (x == Unknown && |WrongAreas(areas, q.routeArea)| < MaxDistractors)
  {
    var u := ItemUnshuffled(areas, q.routeArea, rsWrong);
    var d := Distractors(areas, q.routeArea, rsWrong);
    assert x in multiset(u);
    var i :| 0 <= i < |u| && u[i] == x;
    if i < |d| {
      assert x in d;
    }
  }

  /** Only the padding label can repeat among an item question's options,
      when the areas are listed once each. */
  lemma ItemOptionsOnlyUnknownRepeats(areas: seq<string>, q: StreetRecord, rsWrong: seq<nat>, rsOrder: seq<nat>)
    requires Distinct(areas)
    ensures forall x :: x != Unknown ==> multiset(ItemQuestion(areas, q, rsWrong, rsOrder).options)[x] <= 1
  {
    var d := Distractors(areas, q.routeArea, rsWrong);
    var p := PadUnknown(d);
    var pads := p[|d|..];
    assert p == d + pads;
    var u := ItemUnshuffled(areas, q.routeArea, rsWrong);
    assert u == d + pads + [q.routeArea];
    DistinctMultiset(d);
    forall x | x != Unknown
      ensures multiset(u)[x] <= 1
    {
      assert x !in pads;
      assert multiset(pads)[x] == 0;
      if x == q.routeArea {
        assert x !in d;
        assert multiset(d)[x] == 0;
      }
      assert multiset(u)[x] == multiset(d)[x] + multiset(pads)[x] + multiset([q.routeArea])[x];
    }
  }

  /** The generated questions of `FromItems`, one item at a time. */
  lemma FromItemsOptions(items: seq<StreetRecord>, all: seq<StreetRecord>, rnd: nat -> seq<nat>, k: nat, x: string)
    requires k < |items|
    requires x in FromItems(items, all, rnd)[k].options
    ensures || x == items[k].routeArea
            || (x != items[k].routeArea && exists s :: s in all && s.routeArea == x)
            || (x == Unknown && |WrongAreas(UniqueAreas(all), items[k].routeArea)| < MaxDistractors)
  {
    var areas := UniqueAreas(all);
    assert FromItems(items, all, rnd)[k] == ItemQuestion(areas, items[k], rnd(2 * k + 1), rnd(2 * k + 2));
    ItemOptionShape(areas, items[k], rnd(2 * k + 1), rnd(2 * k + 2), x);
  }

  // ---------------------------------------------------------------------------
  // The answer/advance state machine.

  datatype GameState = Start | Playing | Finished

  /** The page state: `gameState`, `questions`, `currentIndex`, `score`,
      `selectedOption`, `isAnswered` and `wrongAnswers`. */
  datatype Session = Session(
    state: GameState,
    questions: seq<Question>,
    currentIndex: nat,
    score: nat,
    selected: Option<string>,
    isAnswered: bool,
    wrongAnswers: seq<StreetRecord>)

  /** What an answer leaves behind: the page, the store after
      `processQuizResult`, and whether the automatic advance to the next
      question was scheduled (after a correct answer). */
  datatype Answered = Answered(session: Session, store: Store, advance: bool)

  /** `handleAnswer(option)`. A second answer to the same question changes
      nothing. Otherwise the option is recorded; when the current index names
      a question, the answer is scored, the review engine records it, and a
      wrong answer adds the record to the wrong answers. An index past the
      questions stops after recording the option, as reading the missing
      question does. */
  function HandleAnswer(s: Session, store: Store, option: string, now: nat): (a: Answered)
    ensures s.isAnswered ==> a == Answered(s, store, false)
    ensures !s.isAnswered ==> a.session.isAnswered && a.session.selected == Some(option)
    ensures && a.session.state == s.state && a.session.questions == s.questions
            && a.session.currentIndex == s.currentIndex
    ensures !s.isAnswered && s.currentIndex < |s.questions| ==>
              var q := s.questions[s.currentIndex].question;
              var isCorrect := option == q.routeArea;
              && a.advance == isCorrect
              && a.store == ProcessQuizResult(store, q.id, isCorrect, now)
              && (isCorrect ==> a.session.score == s.score + 1 && a.session.wrongAnswers == s.wrongAnswers)
              && (!isCorrect ==> a.session.score == s.score && a.session.wrongAnswers == s.wrongAnswers + [q])
    ensures s.currentIndex >= |s.questions| ==>
              && a.store == store && !a.advance
              && a.session.score == s.score && a.session.wrongAnswers == s.wrongAnswers
  {
    if s.isAnswered then Answered(s, store, false)
    else
      var marked := s.(selected := Some(option), isAnswered := true);
      if s.currentIndex >= |s.questions| then Answered(marked, store, false)
      else
        var q := s.questions[s.currentIndex].question;
        var isCorrect := option == q.routeArea;
        var db := ProcessQuizResult(store, q.id, isCorrect, now);
        if isCorrect then Answered(marked.(score := s.score + 1), db, true)
        else Answered(marked.(wrongAnswers := s.wrongAnswers + [q]), db, false)
  }

  /** `nextQuestion()`: the next question while one is left, the result
      screen after the last. */
  function NextQuestion(s: Session): (n: Session)
    ensures n.questions == s.questions && n.score == s.score && n.wrongAnswers == s.wrongAnswers
    ensures s.currentIndex + 1 < |s.questions| ==>
              n.state == s.state && n.currentIndex == s.currentIndex + 1 && !n.isAnswered && n.selected == None
    ensures s.currentIndex + 1 >= |s.questions| ==> n.state == Finished && n.currentIndex == s.currentIndex
  {
    if (s.currentIndex as int) < |s.questions| - 1 then
      s.(currentIndex := s.currentIndex + 1, isAnswered := false, selected := None)
    else s.(state := Finished)
  }

  /** While playing, the index names a question, and every question up to
      the current one has been answered exactly once: right ones count in
      the score, wrong ones sit in `wrongAnswers`. */
  predicate Consistent(s: Session) {
    s.state == Playing ==>
      && s.currentIndex < |s.questions|
      && s.score + |s.wrongAnswers| == s.currentIndex + (if s.isAnswered then 1 else 0)
  }

  /** Answering keeps the session consistent. */
  lemma AnswerConsistent(s: Session, store: Store, option: string, now: nat)
    requires Consistent(s)
    ensures Consistent(HandleAnswer(s, store, option, now).session)
  {
  }

  /** Advancing after an answer keeps it consistent too; the result screen
      is reached with every question scored or listed as wrong. */
  lemma NextConsistent(s: Session)
    requires Consistent(s) && s.state == Playing && s.isAnswered
    ensures Consistent(NextQuestion(s))
    ensures NextQuestion(s).state == Finished ==>
              s.score + |s.wrongAnswers| == |s.questions|
  {
  }

  // ---------------------------------------------------------------------------
  // startQuiz

  /** The `mode` query parameter: `review`, `mistake`, anything else. */
  datatype Mode = RandomMode | ReviewMode | MistakeMode

  /** The practice pool needs at least this many records. */
  const MinPool: nat := 4

  /** Starting either leaves the page or shows the first question. */
  datatype Start = Navigate(path: string) | Started(session: Session)

  /** The length of `xs.slice(0, end)` for a list of `len` elements: a
      negative end counts back from the end of the list. */
  function SliceLength(len: nat, end: int): (n: nat)
    ensures n <= len
    ensures 0 <= end ==> n == if end < len then end else len
    ensures end < 0 ==> n == if len + end < 0 then 0 else len + end
  {
    if end >= 0 then (if end < len then end else len)
    else if len + end < 0 then 0 else len + end
  }

  /** The first question of a fresh session. */
  function Fresh(quiz: seq<Question>): (s: Session)
    ensures Consistent(s) <==> |quiz| > 0
  {
    Session(Playing, quiz, 0, 0, None, false, [])
  }

  /** `startQuiz()` over the stored records `all` at time `now`, asking for
      `questionCount` questions in random mode. */
  function StartQuiz(mode: Mode, all: seq<StreetRecord>, questionCount: int, now: nat, rnd: nat -> seq<nat>): (r: Start)
    ensures mode == ReviewMode ==>
              if |DueStreets(all, now)| == 0 then r == Navigate("/")
              else r.Started? && Asked(r.session.questions) == DueStreets(all, now)
    ensures mode == MistakeMode ==>
              if |MistakePool(all)| == 0 then r == Navigate("/")
              else r.Started? && Asked(r.session.questions) == MistakePool(all)
    ensures mode == RandomMode ==>
              if |all| < MinPool then r == Navigate("/manage")
              else
                && r.Started?
                && |r.session.questions| == SliceLength(|all|, if questionCount < |all| then questionCount else |all|)
                && multiset(Asked(r.session.questions)) <= multiset(all)
    ensures r.Started? ==>
              && r.session.state == Playing && r.session.currentIndex == 0 && r.session.score == 0
              && r.session.wrongAnswers == [] && !r.session.isAnswered && r.session.selected == None
  {
    match mode
    case ReviewMode =>
      var due := DueStreets(all, now);
      if |due| == 0 then Navigate("/") else Started(Fresh(FromItems(due, all, rnd)))
    case MistakeMode =>
      var mistakes := MistakePool(all);
      if |mistakes| == 0 then Navigate("/") else Started(Fresh(FromItems(mistakes, all, rnd)))
    case RandomMode =>
      if |all| < MinPool then Navigate("/manage")
      else
        var actualCount := if questionCount < |all| then questionCount else |all|;
        Started(Fresh(GenerateQuiz(all, SliceLength(|all|, actualCount), rnd)))
  }

  /** The start button's `disabled` test, negated. */
  predicate StartEnabled(mode: Mode, totalQuestions: nat, questionCount: int, dueCount: nat, mistakeCount: nat) {
    match mode
    case RandomMode => totalQuestions != 0 && questionCount > 0
    case ReviewMode => dueCount != 0
    case MistakeMode => mistakeCount != 0
  }

  /** With counts taken from the current store, an enabled start button
      starts a consistent session with at least one question, unless random
      mode finds fewer than four records; random mode then asks exactly
      `min(questionCount, |all|)` questions. */
  lemma EnabledStartPlays(mode: Mode, all: seq<StreetRecord>, questionCount: int, now: nat, rnd: nat -> seq<nat>)
    requires StartEnabled(mode, |all|, questionCount, |DueStreets(all, now)|, |MistakePool(all)|)
    ensures var r := StartQuiz(mode, all, questionCount, now, rnd);
            || (r.Started? && |r.session.questions| > 0 && Consistent(r.session))
            || (mode == RandomMode && |all| < MinPool && r == Navigate("/manage"))
    ensures mode == RandomMode && |all| >= MinPool ==>
              |StartQuiz(mode, all, questionCount, now, rnd).session.questions|
                == if questionCount < |all| then questionCount else |all|
  {
  }
}

=== FILE: records.dfy ===
/** The street record of `types.ts` and the record store it lives in. */
module Records {

  datatype Option<T> = None | Some(value: T)

  /** Outcome of a store write: the new store, or the reason the write was
      rejected and nothing was stored. */
  datatype Result<T> = Success(value: T) | Failure(error: string)

  /** One street (or building) and the route area it belongs to, with its
      review history. The optional numeric fields of the source read as 0 and
      the optional booleans as false, as the engine's `|| 0` reads do. The
      geolocation fields are not part of this model. */
  datatype StreetRecord = StreetRecord(
    id: string,
    streetName: string,
    routeArea: string,
    companyName: string,   // "" when absent
    pinyin: string,        // "" when absent
    failureCount: nat,
    createdAt: nat,        // epoch milliseconds
    reviewStage: nat,
    nextReviewTime: nat,   // epoch milliseconds, 0 = never scheduled
    lastReviewTime: nat,   // epoch milliseconds, 0 = never reviewed
    isInMistakePool: bool,
    mistakeStreak: nat)

  /** The fields a caller hands to `add` and to `mergeStreets`. */
  datatype NewStreet = NewStreet(streetName: string, routeArea: string, companyName: string, pinyin: string)

  /** A `string | null` as a JavaScript condition: null and the empty
      string are both false. */
  predicate Present(s: Option<string>) {
    s.Some? && |s.value| > 0
  }

  /** The key-value record store, keyed by record id. */
  type Store = map<string, StreetRecord>

  /** Every stored record sits under its own id. */
  predicate WellKeyed(store: Store) {
    forall k :: k in store ==> store[k].id == k
  }

  /** A record that has never been answered. */
  predicate UnreviewedState(r: StreetRecord) {
    && r.failureCount == 0
    && r.reviewStage == 0
    && r.nextReviewTime == 0
    && r.lastReviewTime == 0
    && !r.isInMistakePool
    && r.mistakeStreak == 0
  }

  /** The record `add` and `mergeStreets` create: the caller's fields, a fresh
      id, the creation time and an empty review history. */
  function NewRecord(n: NewStreet, id: string, now: nat): (r: StreetRecord)
    ensures UnreviewedState(r)
    ensures r.id == id && r.createdAt == now
    ensures r.streetName == n.streetName && r.routeArea == n.routeArea
    ensures r.companyName == n.companyName && r.pinyin == n.pinyin
  {
    StreetRecord(id, n.streetName, n.routeArea, n.companyName, n.pinyin,
                 0, now, 0, 0, 0, false, 0)
  }
}

=== FILE: review.dfy ===
/** The review engine: spaced repetition on a fixed interval table plus the
    "mistake pool", a record's five-in-a-row penalty box. */
module Review {
  import opened Seqs
  import opened Records

  const DayMs: nat := 86400000

  /** `SRS_INTERVALS` (0.5, 1, 3, 7, 15 and 30 days) in milliseconds. */
  const SrsIntervalsMs: seq<nat> := [43200000, 86400000, 259200000, 604800000, 1296000000, 2592000000]

  /** `SRS_INTERVALS.length`, the highest stage. */
  const MaxStage: nat := 6

  /** Consecutive correct answers that take a record out of the mistake pool. */
  const GraduationStreak: nat := 5

  /** `SRS_INTERVALS[stage] || 1` days: the table entry, or one day once the
      stage runs past the table. The table grows with the stage; past it the
      interval drops back to a single day, shorter than the last entry. */
  function IntervalMs(stage: nat): (ms: nat)
    ensures ms > 0
    ensures stage < |SrsIntervalsMs| ==> ms == SrsIntervalsMs[stage]
    ensures stage >= |SrsIntervalsMs| ==> ms == DayMs
    ensures stage + 1 < |SrsIntervalsMs| ==> ms < SrsIntervalsMs[stage + 1]
    ensures stage + 1 == |SrsIntervalsMs| ==> DayMs < ms
  {
    if stage < |SrsIntervalsMs| then SrsIntervalsMs[stage] else DayMs
  }

  /** The `getDueStreets` test: scheduled and the time has come, or failed
      but never scheduled. */
  predicate IsDue(r: StreetRecord, now: nat) {
    || (r.nextReviewTime != 0 && r.nextReviewTime <= now)
    || (r.failureCount > 0 && r.nextReviewTime == 0)
  }

  /** A record in the pool always has fewer than five correct answers in a
      row: the fifth takes it out. */
  predicate StreakBelowGraduation(r: StreetRecord) {
    r.isInMistakePool ==> r.mistakeStreak < GraduationStreak
  }

  /** The record after one answer given at time `now`.
      Every answer stamps `lastReviewTime` and leaves the record's identity
      and descriptive fields alone.
      A wrong answer resets the schedule, counts the failure and puts the
      record in the pool; from then on it is due.
      A correct answer moves one stage up (capped at 6), never counts a
      failure, and makes the record due again exactly when the interval of
      its old stage has passed. Outside the pool it leaves the pool fields
      alone; inside, the streak grows and the fifth in a row graduates. */
  function Answer(r: StreetRecord, isCorrect: bool, now: nat): (a: StreetRecord)
    ensures a.lastReviewTime == now
    ensures && a.id == r.id && a.streetName == r.streetName && a.routeArea == r.routeArea
            && a.companyName == r.companyName && a.pinyin == r.pinyin && a.createdAt == r.createdAt
    ensures !isCorrect ==>
              && a.failureCount == r.failureCount + 1
              && a.reviewStage == 0
              && a.isInMistakePool && a.mistakeStreak == 0
              && a.nextReviewTime == now
              && forall t: nat :: t >= now ==> IsDue(a, t)
    ensures isCorrect ==>
              && a.reviewStage == (if r.reviewStage + 1 < MaxStage then r.reviewStage + 1 else MaxStage)
              && a.failureCount == r.failureCount
              && forall t: nat :: IsDue(a, t) <==> t >= now + IntervalMs(r.reviewStage)
    ensures isCorrect && !r.isInMistakePool ==> !a.isInMistakePool && a.mistakeStreak == r.mistakeStreak
    ensures isCorrect && r.isInMistakePool && r.mistakeStreak + 1 < GraduationStreak ==>
              a.isInMistakePool && a.mistakeStreak == r.mistakeStreak + 1
    ensures isCorrect && r.isInMistakePool && r.mistakeStreak + 1 >= GraduationStreak ==>
              !a.isInMistakePool && a.mistakeStreak == 0
    ensures StreakBelowGraduation(r) ==> StreakBelowGraduation(a)
  {
    if isCorrect then
      var stage := if r.reviewStage + 1 < MaxStage then r.reviewStage + 1 else MaxStage;
      var reviewed := r.(reviewStage := stage,
                         nextReviewTime := now + IntervalMs(r.reviewStage),
                         lastReviewTime := now);
      if !r.isInMistakePool then reviewed
      else if r.mistakeStreak + 1 >= GraduationStreak then reviewed.(isInMistakePool := false, mistakeStreak := 0)
      else reviewed.(mistakeStreak := r.mistakeStreak + 1)
    else
      r.(failureCount := r.failureCount + 1,
         reviewStage := 0,
         nextReviewTime := now,
         lastReviewTime := now,
         isInMistakePool := true,
         mistakeStreak := 0)
  }

  /** `processQuizResult(id, isCorrect)` on the store; an unknown id leaves
      it untouched. */
  function ProcessQuizResult(store: Store, id: string, isCorrect: bool, now: nat): (s: Store)
    ensures s.Keys == store.Keys
    ensures id !in store ==> s == store
    ensures forall k :: k in store && k != id ==> s[k] == store[k]
    ensures id in store ==> s[id] == Answer(store[id], isCorrect, now)
    ensures WellKeyed(store) ==> WellKeyed(s)
  {
    if id in store then store[id := Answer(store[id], isCorrect, now)] else store
  }

  /** `getDueStreets`: the due records in store order. */
  function DueStreets(all: seq<StreetRecord>, now: nat): (due: seq<StreetRecord>)
    ensures forall r :: r in due <==> r in all && IsDue(r, now)
    ensures IsSubsequence(due, all)
  {
    Filter(all, (r: StreetRecord) => IsDue(r, now))
  }

  /** `getMistakePool`: the records in the mistake pool, in store order. */
  function MistakePool(all: seq<StreetRecord>): (pool: seq<StreetRecord>)
    ensures forall r :: r in pool <==> r in all && r.isInMistakePool
    ensures IsSubsequence(pool, all)
  {
    Filter(all, (r: StreetRecord) => r.isInMistakePool)
  }

  // ---------------------------------------------------------------------------
  // Runs of answers.

  /** The record after answering correctly at each of the times `nows`. */
  function CorrectRun(r: StreetRecord, nows: seq<nat>): StreetRecord
    decreases |nows|
  {
    if |nows| == 0 then r else CorrectRun(Answer(r, true, nows[0]), nows[1..])
  }

  /** `n` correct answers in a row raise the stage by `n`, capped at 6. */
  lemma {:induction false} StageAfterRun(r: StreetRecord, nows: seq<nat>)
    ensures CorrectRun(r, nows).reviewStage ==
              if r.reviewStage + |nows| < MaxStage then r.reviewStage + |nows|
              else if |nows| == 0 then r.reviewStage
              else MaxStage
    decreases |nows|
  {
    if |nows| > 0 {
      StageAfterRun(Answer(r, true, nows[0]), nows[1..]);
    }
  }

  /** In the pool with streak `k`, the next `j` correct answers keep the record
      in the pool with streak `k + j` until the fifth, which graduates it. */
  lemma {:induction false} StreakAfterRun(r: StreetRecord, nows: seq<nat>)
    requires r.isInMistakePool && r.mistakeStreak < GraduationStreak
    requires r.mistakeStreak + |nows| <= GraduationStreak
    ensures r.mistakeStreak + |nows| < GraduationStreak ==>
              CorrectRun(r, nows).isInMistakePool && CorrectRun(r, nows).mistakeStreak == r.mistakeStreak + |nows|
    ensures r.mistakeStreak + |nows| == GraduationStreak ==>
              !CorrectRun(r, nows).isInMistakePool && CorrectRun(r, nows).mistakeStreak == 0
    decreases |nows|
  {
    if |nows| > 0 {
      var a := Answer(r, true, nows[0]);
      assert CorrectRun(r, nows) == CorrectRun(a, nows[1..]);
      if r.mistakeStreak + 1 < GraduationStreak {
        StreakAfterRun(a, nows[1..]);
      } else {
        assert nows[1..] == [];
      }
    }
  }

  /** Once out of the pool, correct answers never bring a record back. */
  lemma {:induction false} OutOfPoolStaysOut(r: StreetRecord, nows: seq<nat>)
    requires !r.isInMistakePool
    ensures !CorrectRun(r, nows).isInMistakePool
    ensures CorrectRun(r, nows).mistakeStreak == r.mistakeStreak
    decreases |nows|
  {
    if |nows| > 0 {
      OutOfPoolStaysOut(Answer(r, true, nows[0]), nows[1..]);
    }
  }
}

=== FILE: search.dfy ===
/** `search`: rank every stored street against a spoken or typed query and
    return the best five. A street scores on its name (exact, substring,
    homophone-corrected) and on the similarity of its pinyin to the query's;
    the strongest signal counts. */
module Search {
  import opened Strings
  import opened Seqs
  import opened Sorting
  import opened Records
  import opened Levenshtein
  import opened Homophones

  /** A stored record together with the score the query gave it. */
  datatype Match = Match(record: StreetRecord, score: real)

  /** Result size limit (`slice(0, 5)`) and qualifying threshold (`score > 60`). */
  const MaxResults: nat := 5
  const Threshold: real := 60.0

  /** The pinyin the record is compared by: the stored one, or the name's
      pinyin when none is stored (`s.pinyin || getRawPinyin(s.streetName)`). */
  function PinyinKey(s: StreetRecord, py: string -> string): string {
    if |s.pinyin| > 0 then s.pinyin else py(s.streetName)
  }

  /** `dist / maxLen`. */
  function Ratio(d: nat, m: nat): real
    requires m > 0
  {
    (d as real) / (m as real)
  }

  lemma RatioFacts(d: nat, m: nat)
    requires m > 0
    ensures Ratio(d, m) >= 0.0
    ensures d <= m ==> Ratio(d, m) <= 1.0
    ensures Ratio(d, m) == 0.0 <==> d == 0
  {
    var q := Ratio(d, m);
    assert q * (m as real) == d as real;
  }

  /** The pinyin contribution: `70 + 20 * similarity` when the similarity
      `1 - dist / maxLen` exceeds 0.8, and nothing otherwise. When both
      pinyins are empty the similarity is NaN and never exceeds 0.8. */
  function PinyinScore(a: string, b: string): real {
    var maxLen := if |a| >= |b| then |a| else |b|;
    if maxLen == 0 then 0.0
    else
      var sim := 1.0 - Ratio(EditDistance(a, b), maxLen);
      if sim > 0.8 then 70.0 + sim * 20.0 else 0.0
  }

  /** The pinyin contribution is nothing or lies in (86, 90], and reaches 90
      exactly when the two pinyins are equal and not empty. */
  lemma PinyinScoreRange(a: string, b: string)
    ensures PinyinScore(a, b) == 0.0 || 86.0 < PinyinScore(a, b) <= 90.0
    ensures PinyinScore(a, b) == 90.0 <==> a == b && |a| > 0
  {
    var maxLen := if |a| >= |b| then |a| else |b|;
    DistanceZeroIff(a, b);
    if maxLen > 0 {
      DistanceBounds(a, b);
      RatioFacts(EditDistance(a, b), maxLen);
    }
  }

  /** What `search` derives from the query once: the trimmed text, its
      homophone-corrected form and its pinyin. */
  datatype Query = Query(target: string, corrected: string, pinyin: string)

  function MakeQuery(query: string, py: string -> string): Query {
    var target := Trim(query);
    Query(target, Correct(target), py(target))
  }

  /** The name contribution: 100 for the exact name, else 80 when the name
      contains the query, raised to 95 when the name is the
      homophone-corrected query. */
  function NameScore(name: string, q: Query): real {
    var direct := if name == q.target then 100.0
                  else if Contains(name, q.target) then 80.0
                  else 0.0;
    if name == q.corrected && direct < 95.0 then 95.0 else direct
  }

  /** The score of one record: the stronger of the two contributions. */
  function Score(s: StreetRecord, q: Query, py: string -> string): real {
    var name := NameScore(s.streetName, q);
    var p := PinyinScore(PinyinKey(s, py), q.pinyin);
    if p > name then p else name
  }

  /** Scores stay within 0..100, and 100 is reserved for the exact name. */
  lemma ScoreRange(s: StreetRecord, q: Query, py: string -> string)
    ensures 0.0 <= Score(s, q, py) <= 100.0
    ensures Score(s, q, py) == 100.0 <==> s.streetName == q.target
  {
    PinyinScoreRange(PinyinKey(s, py), q.pinyin);
  }

  /** Each signal guarantees its floor: 80 for containing the query, 95 for
      the homophone-corrected query, 90 for an identical non-empty pinyin. */
  lemma ScoreFloors(s: StreetRecord, q: Query, py: string -> string)
    ensures Contains(s.streetName, q.target) ==> Score(s, q, py) >= 80.0
    ensures s.streetName == q.corrected ==> Score(s, q, py) >= 95.0
    ensures PinyinKey(s, py) == q.pinyin && |q.pinyin| > 0 ==> Score(s, q, py) >= 90.0
  {
    PinyinScoreRange(PinyinKey(s, py), q.pinyin);
  }

  /** A record passes the threshold exactly when one of the signals fired. */
  lemma QualifiesIff(s: StreetRecord, q: Query, py: string -> string)
    ensures Score(s, q, py) > Threshold <==>
              || Contains(s.streetName, q.target)
              || s.streetName == q.corrected
              || PinyinScore(PinyinKey(s, py), q.pinyin) > 0.0
  {
    PinyinScoreRange(PinyinKey(s, py), q.pinyin);
    if s.streetName == q.target {
      ContainsSelfAndEmpty(q.target);
    }
  }

  /** Every record with its score, in store order (`all.map(...)`). */
  function Scored(all: seq<StreetRecord>, q: Query, py: string -> string): (ms: seq<Match>)
    ensures |ms| == |all|
    ensures forall i :: 0 <= i < |all| ==> ms[i] == Match(all[i], Score(all[i], q, py))
  {
    seq(|all|, i requires 0 <= i < |all| => Match(all[i], Score(all[i], q, py)))
  }

  predicate Qualifies(m: Match) {
    m.score > Threshold
  }

  /** The comparator `(a, b) => b.score - a.score`: higher scores first. */
  predicate ByScore(a: Match, b: Match) {
    a.score >= b.score
  }

  lemma ByScoreTotal()
    ensures IsTotalPreorder(ByScore)
  {
  }

  /** The qualifying matches carry their own record's score. */
  lemma QualifyingMatches(all: seq<StreetRecord>, q: Query, py: string -> string)
    ensures forall m :: m in Filter(Scored(all, q, py), Qualifies) ==>
              m.record in all && m.score == Score(m.record, q, py) && m.score > Threshold
  {
    var ms := Scored(all, q, py);
    forall m | m in Filter(ms, Qualifies)
      ensures m.record in all && m.score == Score(m.record, q, py) && m.score > Threshold
    {
      var i :| 0 <= i < |ms| && ms[i] == m;
    }
  }

  /** The qualifying matches, stably sorted by descending score. */
  function Ranked(all: seq<StreetRecord>, q: Query, py: string -> string): (rs: seq<Match>)
    ensures multiset(rs) == multiset(Filter(Scored(all, q, py), Qualifies))
    ensures |rs| == CountIf(Scored(all, q, py), Qualifies)
    ensures forall m :: m in rs ==> m.record in all && m.score == Score(m.record, q, py) && m.score > Threshold
    ensures Sorted(rs, ByScore)
    ensures forall z :: Peers(rs, z, ByScore) == Peers(Filter(Scored(all, q, py), Qualifies), z, ByScore)
  {
    ByScoreTotal();
    QualifyingMatches(all, q, py);
    var rs := SortBy(Filter(Scored(all, q, py), Qualifies), ByScore);
    assert forall m :: m in rs ==> m in multiset(rs);
    rs
  }

  /** The first five ranked matches (`slice(0, 5)`). */
  function Top(all: seq<StreetRecord>, q: Query, py: string -> string): (r: seq<Match>)
    ensures |r| == if |Ranked(all, q, py)| < MaxResults then |Ranked(all, q, py)| else MaxResults
    ensures forall m :: m in r ==> m.record in all && m.score == Score(m.record, q, py) && m.score > Threshold
    ensures forall i, j :: 0 <= i < j < |r| ==> r[i].score >= r[j].score
  {
    var rs := Ranked(all, q, py);
    var r := Take(rs, MaxResults);
    assert forall i, j :: 0 <= i < j < |r| ==> ByScore(rs[i], rs[j]);
    r
  }

  /** `search(query)` over the stored records `all`, in the order the store
      lists them: nothing for a blank query, else the top five matches. */
  function Search(all: seq<StreetRecord>, query: string, py: string -> string): (r: seq<Match>)
    ensures |Trim(query)| == 0 ==> r == []
    ensures |r| <= MaxResults
  {
    if |Trim(query)| == 0 then [] else Top(all, MakeQuery(query, py), py)
  }

  // ---------------------------------------------------------------------------
  // What the ranking promises.

  /** A qualifying record that did not make the list lost to five records
      scoring at least as high. */
  lemma TopResults(all: seq<StreetRecord>, q: Query, py: string -> string, m: Match)
    requires m in Scored(all, q, py) && Qualifies(m)
    ensures m !in Top(all, q, py) ==>
              |Top(all, q, py)| == MaxResults && m.score <= Top(all, q, py)[MaxResults - 1].score
  {
    var rs := Ranked(all, q, py);
    var r := Top(all, q, py);
    assert r == Take(rs, MaxResults);
    if m !in r {
      assert m in multiset(rs);
      var j :| 0 <= j < |rs| && rs[j] == m;
      assert |rs| > MaxResults && j >= MaxResults;
      assert ByScore(rs[MaxResults - 1], rs[j]);
    }
  }

  /** A record named exactly as the query always comes first, with score 100. */
  lemma ExactNameFirst(all: seq<StreetRecord>, q: Query, py: string -> string, x: StreetRecord)
    requires x in all && x.streetName == q.target
    ensures |Top(all, q, py)| > 0
    ensures Top(all, q, py)[0].score == 100.0
    ensures Top(all, q, py)[0].record.streetName == q.target
  {
    var ms := Scored(all, q, py);
    var i :| 0 <= i < |all| && all[i] == x;
    var m := ms[i];
    ScoreRange(x, q, py);
    var r := Top(all, q, py);
    assert Qualifies(m) && m in Filter(ms, Qualifies);
    assert CountIf(ms, Qualifies) > 0 by {
      assert |Filter(ms, Qualifies)| > 0;
    }
    TopResults(all, q, py, m);
    if m in r {
      var j :| 0 <= j < |r| && r[j] == m;
      assert j == 0 || r[0].score >= r[j].score;
    } else {
      assert r[0].score >= r[MaxResults - 1].score;
    }
    assert r[0] in r;
    ScoreRange(r[0].record, q, py);
  }

  /** A record whose name is the homophone-corrected query always qualifies,
      so it is returned unless five records score at least as high. */
  lemma HomophoneQualifies(all: seq<StreetRecord>, q: Query, py: string -> string, x: StreetRecord)
    requires x in all && x.streetName == q.corrected
    ensures Match(x, Score(x, q, py)) in Top(all, q, py)
            || (|Top(all, q, py)| == MaxResults && Top(all, q, py)[MaxResults - 1].score >= 95.0)
  {
    var ms := Scored(all, q, py);
    var i :| 0 <= i < |all| && all[i] == x;
    ScoreFloors(x, q, py);
    TopResults(all, q, py, ms[i]);
  }

  /** The same two guarantees stated on the raw query text. */
  lemma SearchExactNameFirst(all: seq<StreetRecord>, query: string, py: string -> string, x: StreetRecord)
    requires x in all && x.streetName == Trim(query) && |Trim(query)| > 0
    ensures |Search(all, query, py)| > 0 && Search(all, query, py)[0].score == 100.0
  {
    ExactNameFirst(all, MakeQuery(query, py), py, x);
  }

  lemma SearchHomophone(all: seq<StreetRecord>, query: string, py: string -> string, x: StreetRecord)
    requires x in all && x.streetName == Correct(Trim(query)) && |Trim(query)| > 0
    ensures Search(all, query, py) == Top(all, MakeQuery(query, py), py)
    ensures Match(x, Score(x, MakeQuery(query, py), py)) in Search(all, query, py)
            || (|Search(all, query, py)| == MaxResults && Search(all, query, py)[MaxResults - 1].score >= 95.0)
  {
    HomophoneQualifies(all, MakeQuery(query, py), py, x);
  }
}

=== FILE: segmenter.dfy ===
/** `batchRecognize`: cut a dictated run of addresses into street names.
    The transcript is first put through the homophone pass; then a cursor
    walks it left to right, at each position trying windows of 10 down to 2
    units against the records (longest names first), taking the first hit
    and jumping past it, or stepping one unit on when nothing matches. */
module Segmenter {
  import opened Seqs
  import opened Sorting
  import opened Records
  import opened Levenshtein
  import opened Homophones

  /** The loop's iteration cap (`MAX_LOOPS`). */
  const MaxLoops: nat := 500
  /** Window lengths tried at each position (`maxSearchLen` down to 2). */
  const MaxWindow: nat := 10
  const MinWindow: nat := 2
  /** Shortest window a pinyin (fuzzy) match may cover. */
  const MinFuzzyWindow: nat := 3

  /** One entry of the result: the text the cursor consumed and the record it matched (`match`). */
  datatype Segment = Segment(original: string, found: Option<StreetRecord>)

  /** A window that matched: `len` units from `start`, and the record. */
  datatype Hit = Hit(start: nat, len: nat, record: StreetRecord)

  // ---------------------------------------------------------------------------
  // The candidate records.

  /** The cached copy of a record: its pinyin filled in from the name when
      none is stored. */
  function WithPinyin(s: StreetRecord, py: string -> string): (c: StreetRecord)
    ensures c == s.(pinyin := c.pinyin)
    ensures c.pinyin == if |s.pinyin| > 0 then s.pinyin else py(s.streetName)
  {
    if |s.pinyin| > 0 then s else s.(pinyin := py(s.streetName))
  }

  /** `(a, b) => b.streetName.length - a.streetName.length`: longer names first. */
  predicate LongerName(a: StreetRecord, b: StreetRecord) {
    |a.streetName| >= |b.streetName|
  }

  /** The records in the order the windows search them: the cached copies,
      stably sorted by descending name length. */
  function Candidates(all: seq<StreetRecord>, py: string -> string): (c: seq<StreetRecord>)
    ensures multiset(c) == multiset(seq(|all|, i requires 0 <= i < |all| => WithPinyin(all[i], py)))
    ensures forall i, j :: 0 <= i < j < |c| ==> |c[i].streetName| >= |c[j].streetName|
    ensures forall z :: Peers(c, z, LongerName)
                     == Peers(seq(|all|, i requires 0 <= i < |all| => WithPinyin(all[i], py)), z, LongerName)
  {
    assert IsTotalPreorder(LongerName);
    SortBy(seq(|all|, i requires 0 <= i < |all| => WithPinyin(all[i], py)), LongerName)
  }

  // ---------------------------------------------------------------------------
  // One window.

  /** An exact hit: the window is the record's name. */
  predicate Exact(s: StreetRecord, chunk: string) {
    s.streetName == chunk
  }

  /** A fuzzy hit: the name is within one unit of the window's length and the
      pinyins are within edit distance 1. */
  predicate Fuzzy(s: StreetRecord, chunk: string, py: string -> string) {
    && |s.streetName| <= |chunk| + 1
    && |chunk| <= |s.streetName| + 1
    && EditDistance(s.pinyin, py(chunk)) <= 1
  }

  /** A record the window accepts: exactly, or fuzzily once the window is
      three units or longer. */
  predicate Accepts(s: StreetRecord, chunk: string, py: string -> string) {
    Exact(s, chunk) || (|chunk| >= MinFuzzyWindow && Fuzzy(s, chunk, py))
  }

  /** `xs.find(p)`. */
  function Find(xs: seq<StreetRecord>, p: StreetRecord -> bool): (found: Option<StreetRecord>)
    ensures found.None? <==> forall s :: s in xs ==> !p(s)
    ensures found.Some? ==> exists k :: 0 <= k < |xs| && xs[k] == found.value && p(xs[k])
                                        && forall j :: 0 <= j < k ==> !p(xs[j])
  {
    var k := FindIndex(xs, p);
    if k < |xs| then Some(xs[k]) else None
  }

  /** The record one window matches: the first exact hit, else (three units
      and up) the first fuzzy hit. An exact hit anywhere beats every fuzzy one. */
  function ChunkMatch(streets: seq<StreetRecord>, chunk: string, py: string -> string): (m: Option<StreetRecord>)
    ensures m.None? <==> forall s :: s in streets ==> !Accepts(s, chunk, py)
    ensures m.Some? ==> m.value in streets && Accepts(m.value, chunk, py)
    ensures (exists s :: s in streets && Exact(s, chunk)) ==> m.Some? && Exact(m.value, chunk)
    ensures m.Some? && !Exact(m.value, chunk) ==>
              && (forall s :: s in streets ==> !Exact(s, chunk))
              && |chunk| >= MinFuzzyWindow && Fuzzy(m.value, chunk, py)
  {
    match Find(streets, (s: StreetRecord) => Exact(s, chunk))
    case Some(e) => Some(e)
    case None =>
      if |chunk| >= MinFuzzyWindow then Find(streets, (s: StreetRecord) => Fuzzy(s, chunk, py))
      else None
  }

  // ---------------------------------------------------------------------------
  // The window search and the cursor loop, for any rule `find` that maps a
  // window's text to the record it matches.

  /** Nothing matches the `len` units at `i`. */
  predicate NoneAt(find: string -> Option<StreetRecord>, text: string, i: nat, len: nat)
    requires i + len <= |text|
  {
    find(text[i..i + len]).None?
  }

  /** The hit is what `find` gives for its own span. */
  predicate Accepted(find: string -> Option<StreetRecord>, text: string, h: Hit) {
    h.start + h.len <= |text| && find(text[h.start..h.start + h.len]) == Some(h.record)
  }

  /** The window search at position `i`, lengths `len` down to 2: the first
      (longest) window that matches. */
  function Window(find: string -> Option<StreetRecord>, text: string, i: nat, len: nat): (w: Option<Hit>)
    ensures w.Some? ==> w.value.start == i && MinWindow <= w.value.len <= len && Accepted(find, text, w.value)
    decreases len
  {
    if len < MinWindow then None
    else if |text| < i + len then Window(find, text, i, len - 1)
    else
      var m := find(text[i..i + len]);
      if m.Some? then Some(Hit(i, len, m.value)) else Window(find, text, i, len - 1)
  }

  /** Longest first: every longer window that fits was tried and matched
      nothing, and when the search finds nothing no window matched at all. */
  lemma {:induction false} WindowLongest(find: string -> Option<StreetRecord>, text: string, i: nat, len: nat)
    ensures Window(find, text, i, len).Some? ==>
              forall l :: Window(find, text, i, len).value.len < l <= len && i + l <= |text| ==> NoneAt(find, text, i, l)
    ensures Window(find, text, i, len).None? ==>
              forall l :: MinWindow <= l <= len && i + l <= |text| ==> NoneAt(find, text, i, l)
    decreases len
  {
    if len >= MinWindow {
      WindowLongest(find, text, i, len - 1);
      if i + len <= |text| && NoneAt(find, text, i, len) {
        assert Window(find, text, i, len) == Window(find, text, i, len - 1);
      }
    }
  }

  /** A hit as the loop records it: 2..10 units, matched by `find`, and no
      longer window at its start (up to 10 units) matched. */
  predicate GoodHit(find: string -> Option<StreetRecord>, text: string, h: Hit) {
    && MinWindow <= h.len <= MaxWindow
    && Accepted(find, text, h)
    && forall l :: h.len < l <= MaxWindow && h.start + l <= |text| ==> NoneAt(find, text, h.start, l)
  }

  /** What the window search at a position gives is a good hit there. */
  lemma WindowGood(find: string -> Option<StreetRecord>, text: string, i: nat)
    requires Window(find, text, i, MaxWindow).Some?
    ensures GoodHit(find, text, Window(find, text, i, MaxWindow).value)
  {
    WindowLongest(find, text, i, MaxWindow);
  }

  // ---------------------------------------------------------------------------
  // The cursor loop, for any rule `next` giving the hit at a position.

  /** The step rule `next` reports hits at the position asked, at least one
      unit long and inside a text of length `n`. */
  ghost predicate StepsWithin(next: nat -> Option<Hit>, n: nat) {
    forall j: nat :: next(j).Some? ==>
      next(j).value.start == j && 1 <= next(j).value.len && j + next(j).value.len <= n
  }

  /** The window search as a step rule. */
  function WindowSteps(find: string -> Option<StreetRecord>, text: string): (next: nat -> Option<Hit>)
    ensures StepsWithin(next, |text|)
  {
    (j: nat) => Window(find, text, j, MaxWindow)
  }

  /** Hits lie left to right and never overlap: each ends where or before
      the next starts. */
  predicate Ordered(hs: seq<Hit>)
    decreases |hs|
  {
    |hs| <= 1 || (hs[0].start + hs[0].len <= hs[1].start && Ordered(hs[1..]))
  }

  /** The loop from cursor `i` over a text of length `n`, with `fuel`
      iterations left: take the hit at the cursor and jump past it, or step
      one unit on. */
  function Scan(next: nat -> Option<Hit>, n: nat, i: nat, fuel: nat): (hs: seq<Hit>)
    requires i <= n && StepsWithin(next, n)
    ensures |hs| <= fuel
    ensures forall k :: 0 <= k < |hs| ==> i <= hs[k].start && hs[k].start + hs[k].len <= n
    decreases fuel
  {
    if i == n || fuel == 0 then []
    else if next(i).Some? then [next(i).value] + Scan(next, n, i + next(i).value.len, fuel - 1)
    else Scan(next, n, i + 1, fuel - 1)
  }

  /** Every hit the loop records is what the step rule gives at its start. */
  lemma {:induction false} ScanSteps(next: nat -> Option<Hit>, n: nat, i: nat, fuel: nat)
    requires i <= n && StepsWithin(next, n)
    ensures forall k :: 0 <= k < |Scan(next, n, i, fuel)| ==>
              next(Scan(next, n, i, fuel)[k].start) == Some(Scan(next, n, i, fuel)[k])
    decreases fuel
  {
    if i < n && fuel > 0 {
      if next(i).Some? {
        var h := next(i).value;
        ScanSteps(next, n, i + h.len, fuel - 1);
        var tail := Scan(next, n, i + h.len, fuel - 1);
        var hs := [h] + tail;
        assert Scan(next, n, i, fuel) == hs;
        forall k | 1 <= k < |hs| ensures next(hs[k].start) == Some(hs[k]) {
          assert hs[k] == tail[k - 1];
        }
      } else {
        ScanSteps(next, n, i + 1, fuel - 1);
      }
    }
  }

  /** The hits come left to right without overlapping. */
  lemma {:induction false} ScanOrdered(next: nat -> Option<Hit>, n: nat, i: nat, fuel: nat)
    requires i <= n && StepsWithin(next, n)
    ensures Ordered(Scan(next, n, i, fuel))
    decreases fuel
  {
    if i < n && fuel > 0 {
      if next(i).Some? {
        var h := next(i).value;
        ScanOrdered(next, n, i + h.len, fuel - 1);
        var tail := Scan(next, n, i + h.len, fuel - 1);
        assert ([h] + tail)[1..] == tail;
      } else {
        ScanOrdered(next, n, i + 1, fuel - 1);
      }
    }
  }

  /** Positions the loop steps over without a hit are positions where the
      step rule found nothing: between the cursor and the first hit, no
      position had one. */
  lemma {:induction false} ScanSkips(next: nat -> Option<Hit>, n: nat, i: nat, fuel: nat)
    requires i <= n && StepsWithin(next, n)
    requires |Scan(next, n, i, fuel)| > 0
    ensures forall p :: i <= p < Scan(next, n, i, fuel)[0].start ==> next(p).None?
    decreases fuel
  {
    if next(i).None? {
      ScanSkips(next, n, i + 1, fuel - 1);
    }
  }

  /** One iteration of the loop keeps "the hits so far, then the rest of
      the scan, make the whole scan". */
  lemma ScanStep(next: nat -> Option<Hit>, n: nat, i: nat, fuel: nat, done: seq<Hit>, total: seq<Hit>)
    requires i < n && fuel > 0 && StepsWithin(next, n)
    requires done + Scan(next, n, i, fuel) == total
    ensures next(i).Some? ==> (done + [next(i).value]) + Scan(next, n, i + next(i).value.len, fuel - 1) == total
    ensures next(i).None? ==> done + Scan(next, n, i + 1, fuel - 1) == total
  {
    if next(i).Some? {
      var h := next(i).value;
      var tail := Scan(next, n, i + h.len, fuel - 1);
      assert Scan(next, n, i, fuel) == [h] + tail;
      assert done + ([h] + tail) == (done + [h]) + tail;
    }
  }

  /** What the loop pushes for a hit: the span's text and its record. */
  function SegmentOf(text: string, h: Hit): (r: Segment)
    requires h.start + h.len <= |text|
    ensures r.original == text[h.start..h.start + h.len]
    ensures |r.original| == h.len && r.found == Some(h.record)
  {
    Segment(text[h.start..h.start + h.len], Some(h.record))
  }

  /** The window loop at cursor `i`: lengths 10 down to 2, stopping at the
      first window that matches. It stands alone: the cursor loop below
      takes its step rule as `WindowSteps`, whose value at `i` is the
      `Window` this method computes. */
  method Probe(find: string -> Option<StreetRecord>, text: string, i: nat) returns (best: Option<Hit>)
    ensures best == Window(find, text, i, MaxWindow)
  {
    best := None;
    var len: nat := MaxWindow;
    while best.None? && len >= MinWindow
      invariant best.None? ==> Window(find, text, i, MaxWindow) == Window(find, text, i, len)
      invariant best.Some? ==> best == Window(find, text, i, MaxWindow)
      decreases len
    {
      if i + len <= |text| {
        var m := find(text[i..i + len]);
        if m.Some? {
          best := Some(Hit(i, len, m.value));
        }
      }
      len := len - 1;
    }
  }

  /** The `while` loop: at most `maxLoops` iterations, each either taking
      the hit the step rule gives at the cursor and jumping past it, or
      stepping one unit on. */
  method Cursor(next: nat -> Option<Hit>, n: nat, maxLoops: nat) returns (hits: seq<Hit>)
    requires StepsWithin(next, n)
    ensures hits == Scan(next, n, 0, maxLoops)
  {
    ghost var total := Scan(next, n, 0, maxLoops);
    var i: nat := 0;
    var loopCount: nat := 0;
    hits := [];
    while i < n && loopCount < maxLoops
      invariant i <= n && loopCount <= maxLoops
      invariant hits + Scan(next, n, i, maxLoops - loopCount) == total
      decreases maxLoops - loopCount
    {
      ScanStep(next, n, i, maxLoops - loopCount, hits, total);
      loopCount := loopCount + 1;
      var best := next(i);
      if best.Some? {
        hits := hits + [best.value];
        i := i + best.value.len;
      } else {
        i := i + 1;
      }
    }
  }

  /** The result entries: each hit's span of the text, with its record. */
  function Segments(text: string, hs: seq<Hit>): (r: seq<Segment>)
    requires forall k :: 0 <= k < |hs| ==> hs[k].start + hs[k].len <= |text|
    ensures |r| == |hs|
    ensures forall k :: 0 <= k < |hs| ==> r[k] == SegmentOf(text, hs[k])
  {
    seq(|hs|, k requires 0 <= k < |hs| => SegmentOf(text, hs[k]))
  }

  /** `segs` are the spans `ws` of `text`, in order: left to right and
      disjoint. */
  predicate SpansOf(text: string, segs: seq<Segment>, ws: seq<Hit>) {
    && |ws| == |segs|
    && Ordered(ws)
    && forall k :: 0 <= k < |ws| ==>
         ws[k].start + ws[k].len <= |text| && segs[k].original == text[ws[k].start..ws[k].start + ws[k].len]
  }

  // ---------------------------------------------------------------------------
  // The whole of `batchRecognize`.

  /** The rule the windows use: `ChunkMatch` over the candidates. */
  function Matcher(streets: seq<StreetRecord>, py: string -> string): string -> Option<StreetRecord> {
    (chunk: string) => ChunkMatch(streets, chunk, py)
  }

  /** Every hit the loop records is the longest matching window at its
      start. */
  lemma ScanGood(find: string -> Option<StreetRecord>, text: string, maxLoops: nat, hs: seq<Hit>)
    requires hs == Scan(WindowSteps(find, text), |text|, 0, maxLoops)
    ensures forall k :: 0 <= k < |hs| ==> GoodHit(find, text, hs[k])
  {
    var next := WindowSteps(find, text);
    ScanSteps(next, |text|, 0, maxLoops);
    forall k | 0 <= k < |hs| ensures GoodHit(find, text, hs[k]) {
      assert next(hs[k].start) == Some(hs[k]);
      WindowGood(find, text, hs[k].start);
    }
  }

  /** With the record rule, every hit's record is a candidate that accepts
      the hit's span, exactly or fuzzily. */
  lemma MatcherHits(streets: seq<StreetRecord>, py: string -> string, text: string, hs: seq<Hit>)
    requires forall k :: 0 <= k < |hs| ==> GoodHit(Matcher(streets, py), text, hs[k])
    ensures forall k :: 0 <= k < |hs| ==>
              && MinWindow <= hs[k].len <= MaxWindow
              && hs[k].start + hs[k].len <= |text|
              && hs[k].record in streets
              && Accepts(hs[k].record, text[hs[k].start..hs[k].start + hs[k].len], py)
  {
    forall k | 0 <= k < |hs|
      ensures hs[k].start + hs[k].len <= |text|
      ensures hs[k].record in streets && Accepts(hs[k].record, text[hs[k].start..hs[k].start + hs[k].len], py)
    {
      MatcherHit(streets, py, text, hs[k]);
    }
  }

  /** One accepted hit of the record rule. */
  lemma MatcherHit(streets: seq<StreetRecord>, py: string -> string, text: string, h: Hit)
    requires Accepted(Matcher(streets, py), text, h)
    ensures h.start + h.len <= |text|
    ensures h.record in streets && Accepts(h.record, text[h.start..h.start + h.len], py)
  {
    assert ChunkMatch(streets, text[h.start..h.start + h.len], py) == Some(h.record);
  }

  /** `batchRecognize(text)` over the stored records `all`: the homophone
      pass, then the cursor loop over the candidates. */
  method BatchRecognize(all: seq<StreetRecord>, text: string, py: string -> string) returns (results: seq<Segment>)
    ensures var p := Correct(text);
            results == Segments(p, Scan(WindowSteps(Matcher(Candidates(all, py), py), p), |p|, 0, MaxLoops))
    ensures |results| <= MaxLoops
    ensures forall r :: r in results ==>
              && MinWindow <= |r.original| <= MaxWindow
              && r.found.Some?
              && r.found.value in Candidates(all, py)
              && Accepts(r.found.value, r.original, py)
  {
    var processed := Correct(text);
    var streets := Candidates(all, py);
    var hits := Cursor(WindowSteps(Matcher(streets, py), processed), |processed|, MaxLoops);
    ScanGood(Matcher(streets, py), processed, MaxLoops, hits);
    MatcherHits(streets, py, processed, hits);
    results := Segments(processed, hits);
  }

  /** What `batchRecognize` returns is a run of spans of the corrected
      text, left to right and disjoint. */
  lemma RecognizedSpans(all: seq<StreetRecord>, text: string, py: string -> string)
    ensures var p := Correct(text);
            var hs := Scan(WindowSteps(Matcher(Candidates(all, py), py), p), |p|, 0, MaxLoops);
            SpansOf(p, Segments(p, hs), hs)
  {
    var p := Correct(text);
    var next := WindowSteps(Matcher(Candidates(all, py), py), p);
    var hs := Scan(next, |p|, 0, MaxLoops);
    ScanOrdered(next, |p|, 0, MaxLoops);
  }
}

=== FILE: seqs.dfy ===
/** Sequence helpers: JavaScript's `filter`, `Array.from(new Set(...))`, and
    the order-preserving sub-list relation the pages' filters promise. */
module Seqs {

  /** `ys` is an order-preserving sub-list of `xs` (greedy matching). */
  predicate IsSubsequence<T(==)>(ys: seq<T>, xs: seq<T>)
    decreases |xs|
  {
    |ys| == 0 || (|xs| > 0 && if ys[0] == xs[0] then IsSubsequence(ys[1..], xs[1..]) else IsSubsequence(ys, xs[1..]))
  }

  /** No element occurs twice. */
  predicate Distinct<T(==)>(xs: seq<T>) {
    forall i, j :: 0 <= i < j < |xs| ==> xs[i] != xs[j]
  }

  /** JavaScript `xs.filter(p)`: exactly the elements satisfying `p`, with
      their multiplicities, in their original order. */
  function Filter<T(!new)>(xs: seq<T>, p: T -> bool): (r: seq<T>)
    ensures |r| <= |xs|
    ensures forall x :: x in r <==> x in xs && p(x)
    ensures forall x :: multiset(r)[x] == if p(x) then multiset(xs)[x] else 0
    ensures IsSubsequence(r, xs)
    decreases |xs|
  {
    if |xs| == 0 then []
    else
      var rest := Filter(xs[1..], p);
      assert xs == [xs[0]] + xs[1..];
      if p(xs[0]) then [xs[0]] + rest else rest
  }

  /** `Filter` only ever drops elements: keeping everything is the identity. */
  lemma {:induction false} FilterAll<T(!new)>(xs: seq<T>, p: T -> bool)
    requires forall x :: x in xs ==> p(x)
    ensures Filter(xs, p) == xs
    decreases |xs|
  {
    if |xs| > 0 {
      FilterAll(xs[1..], p);
    }
  }

  /** `Filter` takes or drops the head, then filters the tail. */
  lemma FilterCons<T(!new)>(xs: seq<T>, p: T -> bool)
    requires |xs| > 0
    ensures Filter(xs, p) == (if p(xs[0]) then [xs[0]] else []) + Filter(xs[1..], p)
  {
  }

  /** Filtering a list with one more element at the end. */
  lemma {:induction false} FilterSnoc<T(!new)>(xs: seq<T>, x: T, p: T -> bool)
    ensures Filter(xs + [x], p) == Filter(xs, p) + (if p(x) then [x] else [])
    decreases |xs|
  {
    var ys := xs + [x];
    var tail := if p(x) then [x] else [];
    if |xs| == 0 {
      FilterCons(ys, p);
      assert ys[1..] == [];
    } else {
      var head := if p(xs[0]) then [xs[0]] else [];
      var mid := Filter(xs[1..], p);
      assert Filter(ys[1..], p) == mid + tail by {
        assert ys[1..] == xs[1..] + [x];
        FilterSnoc(xs[1..], x, p);
      }
      assert Filter(ys, p) == head + Filter(ys[1..], p) by {
        FilterCons(ys, p);
        assert ys[0] == xs[0];
      }
      assert Filter(xs, p) == head + mid by {
        FilterCons(xs, p);
      }
      AppendAssoc(head, mid, tail);
    }
  }

  lemma AppendAssoc<T>(a: seq<T>, b: seq<T>, c: seq<T>)
    ensures a + (b + c) == (a + b) + c
  {
  }

  /** Number of elements satisfying `p`. */
  function CountIf<T(!new)>(xs: seq<T>, p: T -> bool): (n: nat)
    ensures n == |Filter(xs, p)|
    decreases |xs|
  {
    if |xs| == 0 then 0 else (if p(xs[0]) then 1 else 0) + CountIf(xs[1..], p)
  }

  /** `Array.from(new Set(xs))`: the distinct values of `xs`, each at the
      position of its first occurrence. */
  function Dedupe<T(==,!new)>(xs: seq<T>): (r: seq<T>)
    ensures Distinct(r)
    ensures forall x :: x in r <==> x in xs
    ensures |r| <= |xs|
    decreases |xs|
  {
    if |xs| == 0 then []
    else
      var d := Dedupe(xs[..|xs| - 1]);
      var last := xs[|xs| - 1];
      assert xs == xs[..|xs| - 1] + [last];
      if last in d then d else d + [last]
  }

  /** `xs.slice(0, n)`: the first `n` elements, or all of them when there
      are fewer. */
  function Take<T>(xs: seq<T>, n: nat): (r: seq<T>)
    ensures |r| == if |xs| < n then |xs| else n
    ensures forall i :: 0 <= i < |r| ==> r[i] == xs[i]
    ensures forall x :: x in r ==> x in xs
  {
    if |xs| <= n then xs else xs[..n]
  }

  /** `xs.findIndex(p)`, reading "not found" as `|xs|`: the position of the
      first element satisfying `p`. */
  function FindIndex<T>(xs: seq<T>, p: T -> bool): (k: nat)
    ensures k <= |xs|
    ensures k < |xs| ==> p(xs[k])
    ensures forall j :: 0 <= j < k ==> !p(xs[j])
    decreases |xs|
  {
    if |xs| == 0 then 0
    else if p(xs[0]) then 0
    else
      var k := FindIndex(xs[1..], p);
      assert forall j :: 1 <= j < k + 1 ==> xs[j] == xs[1..][j - 1];
      1 + k
  }

  /** No element occurs twice, read off the multiset: every multiplicity is
      at most one. */
  lemma {:induction false} DistinctMultiset<T>(xs: seq<T>)
    ensures Distinct(xs) <==> forall x :: multiset(xs)[x] <= 1
    decreases |xs|
  {
    if |xs| > 0 {
      var h, t := xs[0], xs[1..];
      DistinctMultiset(t);
      assert xs == [h] + t;
      assert Distinct(xs) <==> h !in t && Distinct(t) by {
        if Distinct(xs) {
          forall i, j | 0 <= i < j < |t| ensures t[i] != t[j] {
            assert t[i] == xs[i + 1] && t[j] == xs[j + 1];
          }
        }
        if h !in t && Distinct(t) {
          forall i, j | 0 <= i < j < |xs| ensures xs[i] != xs[j] {
            assert xs[j] == t[j - 1];
            if i > 0 {
              assert xs[i] == t[i - 1];
            }
          }
        }
      }
      assert forall x :: multiset(xs)[x] == multiset(t)[x] + (if x == h then 1 else 0);
      if Distinct(xs) {
        assert multiset(t)[h] == 0;
      } else if h in t {
        assert multiset(xs)[h] >= 2;
      } else {
        var x :| multiset(t)[x] > 1;
        assert multiset(xs)[x] > 1;
      }
    }
  }

  /** Reordering keeps a sequence free of repeats. */
  lemma SameMultisetDistinct<T>(xs: seq<T>, ys: seq<T>)
    requires multiset(xs) == multiset(ys)
    requires Distinct(xs)
    ensures Distinct(ys)
  {
    DistinctMultiset(xs);
    DistinctMultiset(ys);
  }

  /** Filtering keeps a sequence free of repeats. */
  lemma FilterDistinct<T(!new)>(xs: seq<T>, p: T -> bool)
    requires Distinct(xs)
    ensures Distinct(Filter(xs, p))
  {
    DistinctMultiset(xs);
    DistinctMultiset(Filter(xs, p));
  }

  /** The first `n` elements as a multiset lie inside the whole. */
  lemma TakeMultiset<T>(xs: seq<T>, n: nat)
    ensures multiset(Take(xs, n)) <= multiset(xs)
  {
    if n < |xs| {
      assert xs == xs[..n] + xs[n..];
    }
  }

  /** `xs` without its element at `j`. */
  function Remove<T>(xs: seq<T>, j: nat): (r: seq<T>)
    requires j < |xs|
    ensures |r| == |xs| - 1
    ensures multiset(xs) == multiset(r) + multiset{xs[j]}
  {
    assert xs == xs[..j] + [xs[j]] + xs[j + 1..];
    xs[..j] + xs[j + 1..]
  }

  /** The position a draw `r` picks among `n` elements. */
  function Pick(r: nat, n: nat): (k: nat)
    requires n > 0
    ensures k < n
    ensures r < n ==> k == r
  {
    r % n
  }

  /** A shuffle driven by the draws `rs`: each pick takes the element at
      `rs[k] % (number left)` out of the elements left (draws run out as
      zeros). The outcome is a reordering of `xs`. */
  function Shuffle<T>(xs: seq<T>, rs: seq<nat>): (r: seq<T>)
    ensures multiset(r) == multiset(xs)
    ensures |r| == |xs|
    decreases |xs|
  {
    if |xs| == 0 then []
    else
      var j := Pick(if |rs| > 0 then rs[0] else 0, |xs|);
      [xs[j]] + Shuffle(Remove(xs, j), if |rs| > 0 then rs[1..] else [])
  }

  /** A first draw below the length picks that very position. */
  lemma ShuffleFirst<T>(xs: seq<T>, j: nat, rs: seq<nat>)
    requires j < |xs|
    ensures Shuffle(xs, [j] + rs) == [xs[j]] + Shuffle(Remove(xs, j), rs)
  {
    assert ([j] + rs)[0] == j && ([j] + rs)[1..] == rs;
  }

  /** Every reordering of `xs` is the outcome of some draws, so `Shuffle`
      stands for "some permutation" and nothing narrower. */
  lemma {:induction false} ShuffleReaches<T>(xs: seq<T>, p: seq<T>) returns (rs: seq<nat>)
    requires multiset(p) == multiset(xs)
    ensures Shuffle(xs, rs) == p
    decreases |xs|
  {
    if |xs| == 0 {
      assert |p| == |multiset(p)| == 0;
      rs := [];
    } else {
      assert |p| == |multiset(p)| == |xs|;
      assert p[0] in multiset(xs);
      var j: nat :| j < |xs| && xs[j] == p[0];
      var rest := Remove(xs, j);
      assert p == [p[0]] + p[1..];
      assert multiset(p) == multiset{p[0]} + multiset(p[1..]);
      assert multiset(p[1..]) == multiset(p) - multiset{p[0]};
      assert multiset(rest) == multiset(xs) - multiset{xs[j]};
      var rs' := ShuffleReaches(rest, p[1..]);
      rs := [j] + rs';
      ShuffleFirst(xs, j, rs');
    }
  }
}

=== FILE: sorting.dfy ===
/** JavaScript's `Array.prototype.sort` with a comparator: a stable sort
    (ECMAScript 2019 requires stability). The comparator `(a, b) => ...` is
    read as the relation `le(a, b)`, "the comparator returns <= 0". */
module Sorting {

  /** `le` is total and transitive, as every comparator used here is. */
  ghost predicate IsTotalPreorder<T(!new)>(le: (T, T) -> bool) {
    && (forall a, b :: le(a, b) || le(b, a))
    && (forall a, b, c :: le(a, b) && le(b, c) ==> le(a, c))
  }

  /** Every element is `le` every later element. */
  predicate Sorted<T>(xs: seq<T>, le: (T, T) -> bool) {
    forall i, j :: 0 <= i < j < |xs| ==> le(xs[i], xs[j])
  }

  /** The elements of `xs` that `le` cannot tell apart from `x`, in order. */
  function Peers<T>(xs: seq<T>, x: T, le: (T, T) -> bool): seq<T>
    decreases |xs|
  {
    if |xs| == 0 then []
    else (if le(xs[0], x) && le(x, xs[0]) then [xs[0]] else []) + Peers(xs[1..], x, le)
  }

  /** Puts `x` in front of the first element it is `le`. */
  function Insert<T>(x: T, ys: seq<T>, le: (T, T) -> bool): (r: seq<T>)
    ensures multiset(r) == multiset(ys) + multiset{x}
    ensures |r| == |ys| + 1
    decreases |ys|
  {
    if |ys| == 0 || le(x, ys[0]) then [x] + ys
    else
      assert ys == [ys[0]] + ys[1..];
      [ys[0]] + Insert(x, ys[1..], le)
  }

  lemma {:induction false} InsertSorted<T(!new)>(x: T, ys: seq<T>, le: (T, T) -> bool)
    requires IsTotalPreorder(le)
    requires Sorted(ys, le)
    ensures Sorted(Insert(x, ys, le), le)
    decreases |ys|
  {
    if |ys| == 0 || le(x, ys[0]) {
    } else {
      InsertSorted(x, ys[1..], le);
      var tail := Insert(x, ys[1..], le);
      assert multiset(tail) == multiset(ys[1..]) + multiset{x};
      forall k | 0 <= k < |tail| ensures le(ys[0], tail[k]) {
        assert tail[k] in multiset(tail);
        if tail[k] != x {
          assert tail[k] in ys[1..];
        }
      }
    }
  }

  lemma {:induction false} InsertPeers<T(!new)>(x: T, ys: seq<T>, z: T, le: (T, T) -> bool)
    requires IsTotalPreorder(le)
    ensures Peers(Insert(x, ys, le), z, le)
         == (if le(x, z) && le(z, x) then [x] else []) + Peers(ys, z, le)
    decreases |ys|
  {
    if |ys| == 0 || le(x, ys[0]) {
      assert ([x] + ys)[1..] == ys;
    } else {
      var y0, tail := ys[0], Insert(x, ys[1..], le);
      InsertPeers(x, ys[1..], z, le);
      assert ([ys[0]] + tail)[1..] == tail;
      assert Peers(Insert(x, ys, le), z, le)
          == (if le(ys[0], z) && le(z, ys[0]) then [ys[0]] else []) + Peers(tail, z, le);
      assert Peers(ys, z, le)
          == (if le(ys[0], z) && le(z, ys[0]) then [ys[0]] else []) + Peers(ys[1..], z, le);
      if le(x, z) && le(z, x) {
        // ys[0] comes strictly before x, so it cannot also be a peer of z.
        assert le(z, y0) ==> le(x, y0);
      }
    }
  }

  /** `xs.sort(cmp)`: a stable sorted permutation of `xs`. */
  function SortBy<T(!new)>(xs: seq<T>, le: (T, T) -> bool): (r: seq<T>)
    requires IsTotalPreorder(le)
    ensures multiset(r) == multiset(xs)
    ensures |r| == |xs|
    ensures Sorted(r, le)
    ensures forall z :: Peers(r, z, le) == Peers(xs, z, le)
    decreases |xs|
  {
    if |xs| == 0 then []
    else
      var rest := SortBy(xs[1..], le);
      InsertSorted(xs[0], rest, le);
      assert xs == [xs[0]] + xs[1..];
      assert forall z :: Peers(Insert(xs[0], rest, le), z, le) == Peers(xs, z, le) by {
        forall z ensures Peers(Insert(xs[0], rest, le), z, le) == Peers(xs, z, le) {
          InsertPeers(xs[0], rest, z, le);
        }
      }
      Insert(xs[0], rest, le)
  }
}

=== FILE: store.dfy ===
/** Writes to the street store: `add` and the bulk upsert `mergeStreets`.
    Both go through one key-value transaction, so a rejected write (a fresh
    id that is already taken) stores nothing. */
module StreetStore {
  import opened Seqs
  import opened Records

  /** The IndexedDB error `add` raises for a key that already exists. */
  const DuplicateKey: string := "ConstraintError"

  /** `add(record)`: store the caller's fields under the fresh id `id` with an
      empty review history. */
  function Add(store: Store, n: NewStreet, id: string, now: nat): (res: Result<Store>)
    ensures res.Success? <==> id !in store
    ensures res.Success? ==>
              && res.value.Keys == store.Keys + {id}
              && res.value[id] == NewRecord(n, id, now)
              && (forall k :: k in store ==> res.value[k] == store[k])
              && (WellKeyed(store) ==> WellKeyed(res.value))
  {
    if id in store then Failure(DuplicateKey) else Success(store[id := NewRecord(n, id, now)])
  }

  /** `all.find(s => s.streetName === name)`: the first record with that name. */
  function FindByName(all: seq<StreetRecord>, name: string): (found: Option<StreetRecord>)
    ensures found.None? <==> forall s :: s in all ==> s.streetName != name
    ensures found.Some? ==>
              exists i :: 0 <= i < |all| && all[i] == found.value && found.value.streetName == name
                          && forall j :: 0 <= j < i ==> all[j].streetName != name
    decreases |all|
  {
    if |all| == 0 then None
    else if all[0].streetName == name then Some(all[0])
    else
      var rest := FindByName(all[1..], name);
      assert forall s :: s in all ==> s == all[0] || s in all[1..];
      if rest.Some? then
        var i :| 0 <= i < |all[1..]| && all[1..][i] == rest.value && rest.value.streetName == name
                 && forall j :: 0 <= j < i ==> all[1..][j].streetName != name;
        assert all[i + 1] == rest.value;
        rest
      else rest
  }

  /** An update keeps the stored record and its review history, takes the new
      route area, and takes the new pinyin unless it is empty. */
  function Updated(e: StreetRecord, row: NewStreet): (u: StreetRecord)
    ensures u.id == e.id && u.streetName == e.streetName && u.companyName == e.companyName
    ensures u.routeArea == row.routeArea
    ensures u.pinyin == if |row.pinyin| > 0 then row.pinyin else e.pinyin
    ensures && u.failureCount == e.failureCount && u.createdAt == e.createdAt
            && u.reviewStage == e.reviewStage && u.nextReviewTime == e.nextReviewTime
            && u.lastReviewTime == e.lastReviewTime && u.isInMistakePool == e.isInMistakePool
            && u.mistakeStreak == e.mistakeStreak
  {
    e.(routeArea := row.routeArea, pinyin := if |row.pinyin| > 0 then row.pinyin else e.pinyin)
  }

  /** Running state of the merge loop. */
  datatype Merge = Merge(store: Store, added: nat, updated: nat)

  /** A row updates when the snapshot holds a record of the same name. */
  predicate Matches(all: seq<StreetRecord>, row: NewStreet) {
    exists s :: s in all && s.streetName == row.streetName
  }

  /** One row of the merge loop: update the first snapshot record of the
      same name, or add a new record under `id`. */
  function Step(acc: Merge, all: seq<StreetRecord>, row: NewStreet, id: string, now: nat): (res: Result<Merge>)
    ensures res.Success? ==> res.value.added + res.value.updated == acc.added + acc.updated + 1
    ensures res.Success? ==> res.value.updated == acc.updated + (if Matches(all, row) then 1 else 0)
    ensures res.Success? ==> acc.store.Keys <= res.value.store.Keys
    ensures res.Failure? <==> !Matches(all, row) && id in acc.store
  {
    match FindByName(all, row.streetName)
    case Some(e) => Success(acc.(store := acc.store[e.id := Updated(e, row)], updated := acc.updated + 1))
    case None =>
      if id in acc.store then Failure(DuplicateKey)
      else Success(acc.(store := acc.store[id := NewRecord(row, id, now)], added := acc.added + 1))
  }

  /** Rows `i..` of the merge loop. Matching is against the snapshot `all`
      taken before the loop, so rows added earlier in the same batch are
      never matched, and an update starts from the snapshot's record. The
      row at index `i` that adds takes the id `newId(i)`. */
  function MergeFrom(acc: Merge, all: seq<StreetRecord>, rows: seq<NewStreet>, i: nat,
                     newId: nat -> string, now: nat): (res: Result<Merge>)
    requires i <= |rows|
    ensures res.Success? ==>
              && res.value.added + res.value.updated == acc.added + acc.updated + (|rows| - i)
              && res.value.updated == acc.updated + CountIf(rows[i..], (r: NewStreet) => Matches(all, r))
              && acc.store.Keys <= res.value.store.Keys
    decreases |rows| - i
  {
    if i == |rows| then Success(acc)
    else
      assert rows[i..][0] == rows[i] && rows[i..][1..] == rows[i + 1..];
      var step := Step(acc, all, rows[i], newId(i), now);
      if step.Failure? then step
      else MergeFrom(step.value, all, rows, i + 1, newId, now)
  }

  /** `mergeStreets(rows)` against the snapshot `all` of the store. One
      clock reading `now` stands for the `Date.now()` each added record
      takes as its creation time; the rows of one merge are written within
      the same transaction. */
  function MergeStreets(store: Store, all: seq<StreetRecord>, rows: seq<NewStreet>,
                        newId: nat -> string, now: nat): (res: Result<Merge>)
    ensures res.Success? ==>
              && res.value.added + res.value.updated == |rows|
              && res.value.updated == CountIf(rows, (r: NewStreet) => Matches(all, r))
              && store.Keys <= res.value.store.Keys
  {
    assert rows[0..] == rows;
    MergeFrom(Merge(store, 0, 0), all, rows, 0, newId, now)
  }

  // ---------------------------------------------------------------------------
  // What a merge writes.

  /** Where a stored record can come from after a merge of `rows`: it was
      there before and untouched, it is a snapshot record updated by a row of
      the same name, or it is a new record built from a row. */
  predicate Provenance(before: Store, after: Store, all: seq<StreetRecord>, rows: seq<NewStreet>, now: nat) {
    forall k :: k in after ==> FromRows(before, after, all, rows, now, k)
  }

  predicate FromRows(before: Store, after: Store, all: seq<StreetRecord>, rows: seq<NewStreet>, now: nat, k: string)
    requires k in after
  {
    || (k in before && after[k] == before[k])
    || (exists e, row :: e in all && row in rows && e.id == k && e.streetName == row.streetName
                         && after[k] == Updated(e, row))
    || (exists row :: row in rows && after[k] == NewRecord(row, k, now))
  }

  lemma StepProvenance(acc: Merge, all: seq<StreetRecord>, rows: seq<NewStreet>, i: nat, id: string, now: nat, before: Store)
    requires i < |rows|
    requires Provenance(before, acc.store, all, rows, now)
    ensures Step(acc, all, rows[i], id, now).Success? ==>
              Provenance(before, Step(acc, all, rows[i], id, now).value.store, all, rows, now)
  {
    var row := rows[i];
    var step := Step(acc, all, row, id, now);
    if step.Success? {
      var after := step.value.store;
      forall k | k in after ensures FromRows(before, after, all, rows, now, k) {
        match FindByName(all, row.streetName)
        case Some(e) =>
          if k == e.id {
            assert e in all && row in rows && after[k] == Updated(e, row);
          } else {
            assert FromRows(before, acc.store, all, rows, now, k);
          }
        case None =>
          if k == id {
            assert row in rows && after[k] == NewRecord(row, k, now);
          } else {
            assert FromRows(before, acc.store, all, rows, now, k);
          }
      }
    }
  }

  lemma {:induction false} MergeFromProvenance(acc: Merge, all: seq<StreetRecord>, rows: seq<NewStreet>, i: nat,
                                               newId: nat -> string, now: nat, before: Store)
    requires i <= |rows|
    requires Provenance(before, acc.store, all, rows, now)
    ensures MergeFrom(acc, all, rows, i, newId, now).Success? ==>
              Provenance(before, MergeFrom(acc, all, rows, i, newId, now).value.store, all, rows, now)
    decreases |rows| - i
  {
    if i < |rows| {
      var step := Step(acc, all, rows[i], newId(i), now);
      StepProvenance(acc, all, rows, i, newId(i), now, before);
      if step.Success? {
        MergeFromProvenance(step.value, all, rows, i + 1, newId, now, before);
      }
    }
  }

  /** Every record a merge leaves in the store is an old one untouched, a
      snapshot record updated from a row of its name, or a new one. */
  lemma MergeProvenance(store: Store, all: seq<StreetRecord>, rows: seq<NewStreet>, newId: nat -> string, now: nat)
    ensures MergeStreets(store, all, rows, newId, now).Success? ==>
              Provenance(store, MergeStreets(store, all, rows, newId, now).value.store, all, rows, now)
  {
    MergeFromProvenance(Merge(store, 0, 0), all, rows, 0, newId, now, store);
  }

  /** An update writes a key the store already has. */
  lemma StepKeys(acc: Merge, all: seq<StreetRecord>, row: NewStreet, id: string, now: nat)
    requires forall s :: s in all ==> s.id in acc.store
    ensures Step(acc, all, row, id, now).Success? ==>
              Step(acc, all, row, id, now).value.store.Keys
                == acc.store.Keys + (if Matches(all, row) then {} else {id})
  {
    match FindByName(all, row.streetName)
    case Some(e) =>
      assert e in all;
    case None =>
  }

  /** With ids that are fresh (unused in the store and pairwise distinct) the
      merge always succeeds, given that the snapshot was taken from the store. */
  lemma {:induction false} MergeFromFresh(acc: Merge, all: seq<StreetRecord>, rows: seq<NewStreet>, i: nat,
                                          newId: nat -> string, now: nat)
    requires i <= |rows|
    requires forall s :: s in all ==> s.id in acc.store
    requires forall j :: i <= j < |rows| ==> newId(j) !in acc.store
    requires forall j, k :: i <= j < k < |rows| ==> newId(j) != newId(k)
    ensures MergeFrom(acc, all, rows, i, newId, now).Success?
    decreases |rows| - i
  {
    if i < |rows| {
      var step := Step(acc, all, rows[i], newId(i), now);
      StepKeys(acc, all, rows[i], newId(i), now);
      MergeFromFresh(step.value, all, rows, i + 1, newId, now);
    }
  }

  lemma MergeFresh(store: Store, all: seq<StreetRecord>, rows: seq<NewStreet>, newId: nat -> string, now: nat)
    requires forall s :: s in all ==> s.id in store
    requires forall j :: 0 <= j < |rows| ==> newId(j) !in store
    requires forall j, k :: 0 <= j < k < |rows| ==> newId(j) != newId(k)
    ensures MergeStreets(store, all, rows, newId, now).Success?
  {
    MergeFromFresh(Merge(store, 0, 0), all, rows, 0, newId, now);
  }

  // ---------------------------------------------------------------------------
  // The value a merge leaves under each key.

  /** The key row `j` writes: its snapshot record's id when one has its name,
      otherwise its new id. */
  predicate Writes(all: seq<StreetRecord>, rows: seq<NewStreet>, newId: nat -> string, j: nat, k: string)
    requires j < |rows|
  {
    match FindByName(all, rows[j].streetName)
    case Some(e) => e.id == k
    case None => newId(j) == k
  }

  /** The record row `j` writes: the updated snapshot record, or a new one. */
  function Written(all: seq<StreetRecord>, rows: seq<NewStreet>, newId: nat -> string, now: nat, j: nat): StreetRecord
    requires j < |rows|
  {
    match FindByName(all, rows[j].streetName)
    case Some(e) => Updated(e, rows[j])
    case None => NewRecord(rows[j], newId(j), now)
  }

  /** No row after `j` writes `k`. */
  predicate LastWrite(all: seq<StreetRecord>, rows: seq<NewStreet>, newId: nat -> string, j: nat, k: string) {
    forall j' :: j < j' < |rows| ==> !Writes(all, rows, newId, j', k)
  }

  /** One successful row puts its record under its key and leaves every
      other key as it was. */
  lemma StepWrites(acc: Merge, all: seq<StreetRecord>, rows: seq<NewStreet>, i: nat, newId: nat -> string, now: nat)
    requires i < |rows|
    ensures var step := Step(acc, all, rows[i], newId(i), now);
            step.Success? ==>
              && (forall k :: k in step.value.store <==> k in acc.store || Writes(all, rows, newId, i, k))
              && (forall k :: k in step.value.store ==>
                    step.value.store[k] == if Writes(all, rows, newId, i, k) then Written(all, rows, newId, now, i)
                                           else acc.store[k])
  {
  }

  /** Rows `i..` of a successful merge leave the old keys and the keys the
      rows write. */
  lemma {:induction false} MergeFromKeys(acc: Merge, all: seq<StreetRecord>, rows: seq<NewStreet>, i: nat,
                                         newId: nat -> string, now: nat)
    requires i <= |rows|
    ensures var res := MergeFrom(acc, all, rows, i, newId, now);
            res.Success? ==>
              forall k :: k in res.value.store <==>
                k in acc.store || exists j :: i <= j < |rows| && Writes(all, rows, newId, j, k)
    decreases |rows| - i
  {
    var res := MergeFrom(acc, all, rows, i, newId, now);
    if i < |rows| && res.Success? {
      var step := Step(acc, all, rows[i], newId(i), now);
      StepWrites(acc, all, rows, i, newId, now);
      assert step.Success? && res == MergeFrom(step.value, all, rows, i + 1, newId, now);
      MergeFromKeys(step.value, all, rows, i + 1, newId, now);
      var mid := step.value.store;
      var after := res.value.store;
      forall k | k in after && k !in acc.store && k !in mid
        ensures exists j :: i <= j < |rows| && Writes(all, rows, newId, j, k)
      {
        var j :| i + 1 <= j < |rows| && Writes(all, rows, newId, j, k);
      }
      forall k | Writes(all, rows, newId, i, k) ensures k in after {
        assert k in mid;
      }
    }
  }

  /** Rows `i..` of a successful merge leave a key no row writes as it was. */
  lemma {:induction false} MergeFromKeeps(acc: Merge, all: seq<StreetRecord>, rows: seq<NewStreet>, i: nat,
                                          newId: nat -> string, now: nat)
    requires i <= |rows|
    ensures var res := MergeFrom(acc, all, rows, i, newId, now);
            res.Success? ==>
              forall k :: k in acc.store && (forall j :: i <= j < |rows| ==> !Writes(all, rows, newId, j, k)) ==>
                k in res.value.store && res.value.store[k] == acc.store[k]
    decreases |rows| - i
  {
    var res := MergeFrom(acc, all, rows, i, newId, now);
    if i < |rows| && res.Success? {
      var step := Step(acc, all, rows[i], newId(i), now);
      StepWrites(acc, all, rows, i, newId, now);
      assert step.Success? && res == MergeFrom(step.value, all, rows, i + 1, newId, now);
      MergeFromKeeps(step.value, all, rows, i + 1, newId, now);
      var mid := step.value.store;
      forall k | k in acc.store && (forall j :: i <= j < |rows| ==> !Writes(all, rows, newId, j, k))
        ensures k in mid && mid[k] == acc.store[k]
      {
        assert !Writes(all, rows, newId, i, k);
      }
    }
  }

  /** Rows `i..` of a successful merge: a key holds the record of the last
      row writing it. */
  lemma {:induction false} MergeFromLast(acc: Merge, all: seq<StreetRecord>, rows: seq<NewStreet>, i: nat,
                                         newId: nat -> string, now: nat)
    requires i <= |rows|
    ensures var res := MergeFrom(acc, all, rows, i, newId, now);
            res.Success? ==>
              forall j, k :: i <= j < |rows| && Writes(all, rows, newId, j, k) && LastWrite(all, rows, newId, j, k) ==>
                k in res.value.store && res.value.store[k] == Written(all, rows, newId, now, j)
    decreases |rows| - i
  {
    var res := MergeFrom(acc, all, rows, i, newId, now);
    if i < |rows| && res.Success? {
      var step := Step(acc, all, rows[i], newId(i), now);
      StepWrites(acc, all, rows, i, newId, now);
      assert step.Success? && res == MergeFrom(step.value, all, rows, i + 1, newId, now);
      MergeFromLast(step.value, all, rows, i + 1, newId, now);
      MergeFromKeeps(step.value, all, rows, i + 1, newId, now);
      var mid := step.value.store;
      forall k | Writes(all, rows, newId, i, k) && LastWrite(all, rows, newId, i, k)
        ensures k in mid && mid[k] == Written(all, rows, newId, now, i)
        ensures forall j :: i + 1 <= j < |rows| ==> !Writes(all, rows, newId, j, k)
      {
      }
    }
  }

  /** No later row has the name of row `i`. */
  predicate LastOfName(rows: seq<NewStreet>, i: nat) {
    forall j :: i < j < |rows| ==> rows[j].streetName != rows[i].streetName
  }

  /** Some row updates the record stored under `k`. */
  predicate UpdatedKey(all: seq<StreetRecord>, rows: seq<NewStreet>, k: string) {
    exists i :: 0 <= i < |rows| && FindByName(all, rows[i].streetName).Some?
                && FindByName(all, rows[i].streetName).value.id == k
  }

  /** The snapshot holds records of the store, under their own ids. */
  predicate SnapshotOf(store: Store, all: seq<StreetRecord>) {
    forall s :: s in all ==> s.id in store && store[s.id] == s
  }

  /** The ids handed to added rows are unused in the store and distinct. */
  predicate FreshIds(store: Store, rows: seq<NewStreet>, newId: nat -> string) {
    && (forall j :: 0 <= j < |rows| ==> newId(j) !in store)
    && (forall j, k :: 0 <= j < k < |rows| ==> newId(j) != newId(k))
  }

  /** A key outside the store is written only by a row without a namesake,
      as its new id. */
  lemma WritesUnstored(store: Store, all: seq<StreetRecord>, rows: seq<NewStreet>, newId: nat -> string, j: nat, k: string)
    requires SnapshotOf(store, all)
    requires j < |rows| && Writes(all, rows, newId, j, k) && k !in store
    ensures !Matches(all, rows[j]) && newId(j) == k
  {
    match FindByName(all, rows[j].streetName) {
      case Some(e) => assert false;
      case None =>
    }
  }

  /** After a merge of rows with fresh ids against a snapshot of the store,
      the keys are the old ones and the ids of the rows without a namesake. */
  lemma MergeKeys(store: Store, all: seq<StreetRecord>, rows: seq<NewStreet>, newId: nat -> string, now: nat)
    requires SnapshotOf(store, all) && FreshIds(store, rows, newId)
    ensures MergeStreets(store, all, rows, newId, now).Success?
    ensures MergeStreets(store, all, rows, newId, now).value.store.Keys
         == store.Keys + (set i | 0 <= i < |rows| && !Matches(all, rows[i]) :: newId(i))
  {
    MergeFresh(store, all, rows, newId, now);
    var after := MergeStreets(store, all, rows, newId, now).value.store;
    var born := set i | 0 <= i < |rows| && !Matches(all, rows[i]) :: newId(i);
    assert forall k :: k in after && k !in store ==> k in born by {
      MergeFromKeys(Merge(store, 0, 0), all, rows, 0, newId, now);
      forall k | k in after && k !in store ensures k in born {
        var j :| 0 <= j < |rows| && Writes(all, rows, newId, j, k);
        WritesUnstored(store, all, rows, newId, j, k);
      }
    }
    assert forall k :: k in store || k in born ==> k in after by {
      MergeFromKeys(Merge(store, 0, 0), all, rows, 0, newId, now);
      forall k | k in born ensures k in after {
        var i :| 0 <= i < |rows| && !Matches(all, rows[i]) && newId(i) == k;
        assert Writes(all, rows, newId, i, k);
      }
    }
    assert after.Keys == store.Keys + born;
  }

  /** Each row without a namesake in the snapshot lands as a new record
      under its id. */
  lemma MergeAdds(store: Store, all: seq<StreetRecord>, rows: seq<NewStreet>, newId: nat -> string, now: nat)
    requires SnapshotOf(store, all) && FreshIds(store, rows, newId)
    ensures MergeStreets(store, all, rows, newId, now).Success?
    ensures var after := MergeStreets(store, all, rows, newId, now).value.store;
            forall i :: 0 <= i < |rows| && !Matches(all, rows[i]) ==>
              newId(i) in after && after[newId(i)] == NewRecord(rows[i], newId(i), now)
  {
    MergeFresh(store, all, rows, newId, now);
    MergeFromLast(Merge(store, 0, 0), all, rows, 0, newId, now);
    forall i | 0 <= i < |rows| && !Matches(all, rows[i])
      ensures LastWrite(all, rows, newId, i, newId(i)) && Writes(all, rows, newId, i, newId(i))
    {
      assert FindByName(all, rows[i].streetName).None?;
      forall j' | i < j' < |rows| ensures !Writes(all, rows, newId, j', newId(i)) {
        match FindByName(all, rows[j'].streetName) {
          case Some(e) => assert e in all;
          case None =>
        }
      }
    }
  }

  /** For each snapshot record a row's name finds, the last row of that name
      decides the stored route area and pinyin. */
  lemma MergeUpdates(store: Store, all: seq<StreetRecord>, rows: seq<NewStreet>, newId: nat -> string, now: nat)
    requires SnapshotOf(store, all) && FreshIds(store, rows, newId)
    ensures MergeStreets(store, all, rows, newId, now).Success?
    ensures var after := MergeStreets(store, all, rows, newId, now).value.store;
            forall i, e :: 0 <= i < |rows| && FindByName(all, rows[i].streetName) == Some(e) && LastOfName(rows, i) ==>
              e.id in after && after[e.id] == Updated(e, rows[i])
  {
    MergeFresh(store, all, rows, newId, now);
    MergeFromLast(Merge(store, 0, 0), all, rows, 0, newId, now);
    forall i, e | 0 <= i < |rows| && FindByName(all, rows[i].streetName) == Some(e) && LastOfName(rows, i)
      ensures LastWrite(all, rows, newId, i, e.id) && Writes(all, rows, newId, i, e.id)
    {
      assert e in all && e.streetName == rows[i].streetName;
      forall j' | i < j' < |rows| ensures !Writes(all, rows, newId, j', e.id) {
        match FindByName(all, rows[j'].streetName) {
          case Some(e') =>
            assert e' in all && e'.streetName == rows[j'].streetName;
            assert store[e'.id] == e' && store[e.id] == e;
            assert e' != e;
          case None =>
            assert e in all;
        }
      }
    }
  }

  /** A stored record no row's name finds is left as it was. */
  lemma MergeKeeps(store: Store, all: seq<StreetRecord>, rows: seq<NewStreet>, newId: nat -> string, now: nat)
    requires SnapshotOf(store, all) && FreshIds(store, rows, newId)
    ensures MergeStreets(store, all, rows, newId, now).Success?
    ensures var after := MergeStreets(store, all, rows, newId, now).value.store;
            forall k :: k in store && !UpdatedKey(all, rows, k) ==> k in after && after[k] == store[k]
  {
    MergeFresh(store, all, rows, newId, now);
    MergeFromKeeps(Merge(store, 0, 0), all, rows, 0, newId, now);
    forall k | k in store && !UpdatedKey(all, rows, k)
      ensures forall j :: 0 <= j < |rows| ==> !Writes(all, rows, newId, j, k)
    {
    }
  }
}

=== FILE: strings.dfy ===
/** Text helpers shared by the lookup engine and the pages.

    A string is a sequence of characters (Unicode scalar values). On text
    inside the Basic Multilingual Plane one character is one UTF-16 code
    unit, which is how JavaScript's `includes`, `trim`, `length` and default
    `sort` see it. */
module Strings {

  /** `s` starts with `p`. */
  predicate IsPrefix(p: string, s: string) {
    |p| <= |s| && s[..|p|] == p
  }

  /** JavaScript `hay.includes(needle)`, scanning the offsets left to right. */
  predicate Contains(hay: string, needle: string)
    decreases |hay|
  {
    IsPrefix(needle, hay) || (|hay| > 0 && Contains(hay[1..], needle))
  }

  /** `needle` occurs in `hay` starting at offset `k`. */
  predicate OccursAt(hay: string, needle: string, k: int) {
    0 <= k && k + |needle| <= |hay| && hay[k..k + |needle|] == needle
  }

  /** A successful scan finds an offset where `needle` occurs. */
  lemma {:induction false} OffsetOf(hay: string, needle: string) returns (k: int)
    requires Contains(hay, needle)
    ensures OccursAt(hay, needle, k)
    decreases |hay|
  {
    if IsPrefix(needle, hay) {
      k := 0;
    } else {
      var k' := OffsetOf(hay[1..], needle);
      assert hay[1..][k'..k' + |needle|] == hay[k' + 1..k' + 1 + |needle|];
      k := k' + 1;
    }
  }

  /** An occurrence at any offset is found by the scan. */
  lemma {:induction false} OccursImpliesContains(hay: string, needle: string, k: int)
    requires OccursAt(hay, needle, k)
    ensures Contains(hay, needle)
    decreases k
  {
    if k > 0 {
      assert hay[1..][k - 1..k - 1 + |needle|] == hay[k..k + |needle|];
      OccursImpliesContains(hay[1..], needle, k - 1);
    }
  }

  /** The scanning definition of `includes` agrees with the offset reading. */
  lemma ContainsIffOccurs(hay: string, needle: string)
    ensures Contains(hay, needle) <==> exists k :: OccursAt(hay, needle, k)
  {
    if Contains(hay, needle) {
      var k := OffsetOf(hay, needle);
    }
    forall k | OccursAt(hay, needle, k) ensures Contains(hay, needle) {
      OccursImpliesContains(hay, needle, k);
    }
  }

  /** Every string contains itself and the empty string. */
  lemma ContainsSelfAndEmpty(s: string)
    ensures Contains(s, s) && Contains(s, "")
  {
    assert s[..|s|] == s;
  }

  /** The characters JavaScript's `String.prototype.trim` removes: white space
      and line terminators of ECMAScript section 12.2 and 12.3. */
  predicate IsSpace(c: char) {
    || c == ' ' || c == '\t' || c == '\n' || c == '\r'
    || c == '\U{000B}' || c == '\U{000C}' || c == '\U{00A0}' || c == '\U{1680}'
    || ('\U{2000}' <= c <= '\U{200A}')
    || c == '\U{2028}' || c == '\U{2029}' || c == '\U{202F}' || c == '\U{205F}'
    || c == '\U{3000}' || c == '\U{FEFF}'
  }

  predicate AllSpace(s: string) {
    forall k :: 0 <= k < |s| ==> IsSpace(s[k])
  }

  /** Removes leading white space. */
  function TrimStart(s: string): (r: string)
    ensures |r| <= |s| && r == s[|s| - |r|..]
    ensures AllSpace(s[..|s| - |r|])
    ensures |r| > 0 ==> !IsSpace(r[0])
    decreases |s|
  {
    if |s| > 0 && IsSpace(s[0]) then TrimStart(s[1..]) else s
  }

  /** Removes trailing white space. */
  function TrimEnd(s: string): (r: string)
    ensures |r| <= |s| && r == s[..|r|]
    ensures AllSpace(s[|r|..])
    ensures |r| > 0 ==> !IsSpace(r[|r| - 1])
    decreases |s|
  {
    if |s| > 0 && IsSpace(s[|s| - 1]) then TrimEnd(s[..|s| - 1]) else s
  }

  /** `r` is `s` with the white space before offset `i` and after `i + |r|` cut off. */
  predicate TrimmedAt(s: string, r: string, i: int) {
    && 0 <= i && i + |r| <= |s|
    && r == s[i..i + |r|]
    && AllSpace(s[..i])
    && AllSpace(s[i + |r|..])
  }

  /** Cutting white space off the front, then off the back, leaves the
      middle of the original string. */
  lemma TrimmedFrom(s: string, t: string, r: string)
    requires |t| <= |s| && t == s[|s| - |t|..] && AllSpace(s[..|s| - |t|])
    requires |r| <= |t| && r == t[..|r|] && AllSpace(t[|r|..])
    ensures TrimmedAt(s, r, |s| - |t|)
  {
    var i := |s| - |t|;
    assert s[i..i + |r|] == r;
    assert s[i + |r|..] == t[|r|..];
  }

  /** Trimming both ends cuts white space off both ends and nothing else. */
  lemma TrimBothEnds(s: string)
    ensures TrimmedAt(s, TrimEnd(TrimStart(s)), |s| - |TrimStart(s)|)
  {
    TrimmedFrom(s, TrimStart(s), TrimEnd(TrimStart(s)));
  }

  /** Nothing is left exactly when everything was white space. */
  lemma TrimEmptyIff(s: string)
    ensures |TrimEnd(TrimStart(s))| == 0 <==> AllSpace(s)
  {
    var t := TrimStart(s);
    var r := TrimEnd(t);
    var i := |s| - |t|;
    if |r| == 0 {
      assert t[|r|..] == t;
      assert s[..i] == s;
    } else {
      TrimBothEnds(s);
      assert s[i] == r[0];
    }
  }

  /** JavaScript `s.trim()`. */
  function Trim(s: string): (r: string)
    ensures exists i :: TrimmedAt(s, r, i)
    ensures |r| > 0 ==> !IsSpace(r[0]) && !IsSpace(r[|r| - 1])
    ensures |r| == 0 <==> AllSpace(s)
  {
    TrimBothEnds(s);
    TrimEmptyIff(s);
    TrimEnd(TrimStart(s))
  }

  /** ASCII lower-casing of one character. */
  function LowerChar(c: char): char {
    if 'A' <= c <= 'Z' then (c as int + 32) as char else c
  }

  /** `s.toLowerCase()` restricted to the ASCII letters. */
  function Lower(s: string): (r: string)
    ensures |r| == |s|
    ensures forall k :: 0 <= k < |s| ==> r[k] == LowerChar(s[k])
  {
    seq(|s|, k requires 0 <= k < |s| => LowerChar(s[k]))
  }

  /** Lexicographic order on character codes: JavaScript's default `sort()`
      order on strings inside the Basic Multilingual Plane. */
  predicate LexLe(a: string, b: string)
    decreases |a|
  {
    |a| == 0 || (|b| > 0 && (a[0] < b[0] || (a[0] == b[0] && LexLe(a[1..], b[1..]))))
  }

  lemma {:induction false} LexLeTotal(a: string, b: string)
    ensures LexLe(a, b) || LexLe(b, a)
    decreases |a|
  {
    if |a| > 0 && |b| > 0 && a[0] == b[0] {
      LexLeTotal(a[1..], b[1..]);
    }
  }

  lemma {:induction false} LexLeTransitive(a: string, b: string, c: string)
    requires LexLe(a, b) && LexLe(b, c)
    ensures LexLe(a, c)
    decreases |a|
  {
    if |a| > 0 && a[0] == b[0] && b[0] == c[0] {
      LexLeTransitive(a[1..], b[1..], c[1..]);
    }
  }

  lemma {:induction false} LexLeAntisymmetric(a: string, b: string)
    requires LexLe(a, b) && LexLe(b, a)
    ensures a == b
    decreases |a|
  {
    if |a| > 0 {
      LexLeAntisymmetric(a[1..], b[1..]);
      assert a == [a[0]] + a[1..] && b == [b[0]] + b[1..];
    }
  }
}

=== FILE: todo.dfy ===
/** The daily to-do page: which items are listed, in what order, and the
    guard in front of adding one. The to-do store behind the page is not
    part of this model; the item type is declared here with the fields the
    page reads. Dates are `YYYY-MM-DD` strings. */
module Todo {
  import opened Strings
  import opened Seqs
  import opened Sorting
  import opened Records

  /** A to-do item; `image` is a data URL, when one is attached. */
  datatype TodoItem = TodoItem(id: string, content: string, date: string, isDone: bool, createdAt: nat, image: Option<string>)

  /** `refreshTodos`' filter: open items, and items done today. */
  predicate Listed(t: TodoItem, today: string) {
    !t.isDone || t.date == today
  }

  /** The comparator of `refreshTodos`, read as "returns <= 0": open items
      first; open items by date, then newest first; done items newest first.
      `localeCompare` on the ASCII dates is read as character-code order. */
  predicate TodoLe(a: TodoItem, b: TodoItem) {
    if a.isDone != b.isDone then !a.isDone
    else if !a.isDone && a.date != b.date then LexLe(a.date, b.date)
    else a.createdAt >= b.createdAt
  }

  lemma TodoLeSorts()
    ensures IsTotalPreorder(TodoLe)
  {
    forall a: TodoItem, b: TodoItem ensures TodoLe(a, b) || TodoLe(b, a) {
      LexLeTotal(a.date, b.date);
    }
    forall a: TodoItem, b: TodoItem, c: TodoItem | TodoLe(a, b) && TodoLe(b, c) ensures TodoLe(a, c) {
      if !a.isDone && !b.isDone && !c.isDone {
        LexLeTotal(a.date, a.date);
        LexLeTotal(b.date, b.date);
        assert LexLe(a.date, b.date) && LexLe(b.date, c.date);
        LexLeTransitive(a.date, b.date, c.date);
        if a.date == c.date && a.date != b.date {
          LexLeAntisymmetric(a.date, b.date);
        }
      }
    }
  }

  /** The list the page shows. */
  function Refresh(all: seq<TodoItem>, today: string): (r: seq<TodoItem>)
    ensures forall t :: t in r <==> t in all && (!t.isDone || t.date == today)
    ensures multiset(r) == multiset(Filter(all, (t: TodoItem) => Listed(t, today)))
    ensures Sorted(r, TodoLe)
    ensures forall z :: Peers(r, z, TodoLe) == Peers(Filter(all, (t: TodoItem) => Listed(t, today)), z, TodoLe)
  {
    TodoLeSorts();
    var r := SortBy(Filter(all, (t: TodoItem) => Listed(t, today)), TodoLe);
    assert forall t :: t in r <==> t in multiset(r);
    r
  }

  /** What the order means: every open item comes before every done item,
      open items run by date with the newest first on the same date, and
      done items run newest first. */
  lemma RefreshOrder(all: seq<TodoItem>, today: string, i: nat, j: nat)
    requires i < j < |Refresh(all, today)|
    ensures var r := Refresh(all, today);
            && (r[i].isDone ==> r[j].isDone)
            && (!r[i].isDone && !r[j].isDone ==>
                  LexLe(r[i].date, r[j].date) && (r[i].date == r[j].date ==> r[i].createdAt >= r[j].createdAt))
            && (r[i].isDone && r[j].isDone ==> r[i].createdAt >= r[j].createdAt)
  {
    var r := Refresh(all, today);
    assert TodoLe(r[i], r[j]);
    if !r[i].isDone && !r[j].isDone && r[i].date == r[j].date {
      LexLeTotal(r[i].date, r[j].date);
    }
  }

  /** The label of an item added with a picture and no text. */
  const ImageOnlyContent: string := "图片待办"

  /** What the page asks the to-do store to add. */
  datatype NewTodo = NewTodo(content: string, image: Option<string>)

  /** `handleAddTask`: nothing when there is neither text nor a picture;
      otherwise the trimmed text, or the picture label for a picture alone. */
  function HandleAddTask(content: string, image: Option<string>): (r: Option<NewTodo>)
    ensures r.None? <==> |Trim(content)| == 0 && !Present(image)
    ensures r.Some? ==> |r.value.content| > 0
    ensures r.Some? && |Trim(content)| > 0 ==> r.value.content == Trim(content)
    ensures r.Some? && |Trim(content)| == 0 ==> r.value.content == ImageOnlyContent
    ensures r.Some? ==> (r.value.image == if Present(image) then image else None)
  {
    var text := Trim(content);
    if |text| == 0 && !Present(image) then None
    else Some(NewTodo(if |text| > 0 then text else ImageOnlyContent, if Present(image) then image else None))
  }
}
